=== FILE: README.md ===
# Help-desk relay bot: a Dafny model of its decision logic

The bot relays support requests between Telegram users and two remote
systems: Plane, an issue tracker, and Mattermost, where support staff
answer in one thread per ticket. It keeps users, tickets and ticket
messages in a database. It walks each user through a short conversation:
registration, then title, description and confirmation of a ticket. Free
text goes to the user's current ticket. A Mattermost webhook relays
support replies back to the ticket's owner in Telegram.

This project models the deterministic part of that system as pure
functions over an immutable store:

- `common.dfy`: options, results, and remote-call outcomes. Every Plane or
  Mattermost call is an input `Ok(id)` or `Fail`, and the calls an
  operation attempts are returned as a log.
- `text.dfy`: the Python string operations the code relies on, written out
  and proved. These are `split()`, `strip()`, `' '.join`, `lower()`,
  `istitle()` and decimal rendering of integers.
- `models.dfy`: the three tables and the schema constraints, with the
  inserts that enforce them. The constraints are a unique telegram id, the
  NOT NULL columns, the ticket-to-user foreign key, and the 100-character
  title column.
- `ticket_service.dfy`: the ticket service. It covers lookups, the active
  and last-ticket queries, creation, activation, cancel, close and adding a
  message.
- `keyboards.dfy`, `text_utils.dfy`, `ticket_utils.dfy`: the pure helpers.
- `conversation.dfy`, `registration.dfy`, `ticket_handlers.dfy`,
  `dispatch.dfy`: the conversation state machine. Each handler maps a
  session, a store and an update to the next session, the next store, the
  kind of reply, and the remote calls made.
- `webhook.dfy`: the inbound webhook's decision sequence.
- `scenarios.dfy`: the create, activate and reply round trip.

A primary key is the row's position plus one. "Newest first" is taken to
be descending key order. Both are modelling assumptions, listed under Left
out. Timestamps are
integers. The clock, the post lookup, the support identity and the outcome
of each remote call are parameters.

Four defects, listed under Findings, make every registration, every
ticket creation, every message routed to a ticket and every reply relayed
from Mattermost fail as the code is written. For each one the model has both halves. An `AsWritten` member
models the code as it stands and proves what goes wrong. The corrected
operation is the one the conversation handlers, `Dispatch.Step` and the
round-trip scenarios use, so
that the rest of the flow can be stated. The handlers built on a corrected
operation are named under Left out.

Two helpers also raise as written and are modelled in corrected form only
(see Left out). Elsewhere the model follows the code, including where a
reader might expect otherwise:

- Free text goes to the user's newest ticket whatever its status, and only
  then is "not closed" checked. An older open ticket is never chosen
  (`TicketHandlers.RoutingSkipsOlderOpenTicket`).
- The webhook stores every resolved post, including posts by the support
  account itself, before the echo check. It comments nothing in Plane and
  does not retry the post lookup.
- When ticket creation passes its early checks it clears the session on
  every outcome. An exception while adding a message to a ticket leaves the
  session as it was.
- The /start command is recognised in every state, also with an argument or
  with the bot's own name after "@" (`Dispatch.IsStartCommand`).

## Model

| member | source | states |
|---|---|---|
| Models.InsertUser | bot/models/models.py:6-18 | A user row is refused exactly when its telegram id does not fit the 32-bit INTEGER column (checked first), company or shop is unset (NOT NULL, checked next), or its telegram id is already taken (unique). Otherwise exactly one row is appended with the next key and the given telegram id, username, full name, company and shop. The other tables are unchanged and the schema invariant is kept. |
| Models.WideTelegramIdRefused | bot/models/models.py:10 | A telegram id of 3000000000 does not fit the INTEGER column and is refused even by an empty table, while 2147483647 is stored. |
| Models.InsertTicket | bot/models/models.py:20-34 | A ticket row is stored exactly when the title fits in 100 characters, the description is set and the owner exists. It gets the next key, the given fields and no `closed_at`. An over-long title is refused first, then an unset description (NOT NULL). |
| Models.AppendMessage | bot/models/models.py:36-45 | Exactly one message with the given ticket, sender and content is appended under the next key. Users and tickets are unchanged and the invariant is kept. |
| TicketService.FindUserByTelegramId | bot/services/ticket_service.py:14-18 | The result is a stored user with that telegram id. None means that no user has it. |
| TicketService.FindUserById | bot/services/ticket_service.py:20-24 | The result is a stored user with that key. None means that no user has it. |
| TicketService.FindTicketByPostId | bot/services/ticket_service.py:26-30 | The result is a stored ticket whose Mattermost post id is the one given. None means that no ticket has it. |
| TicketService.FindTicketById | bot/services/ticket_service.py:43-48 | The result is the stored ticket with that key. None means that no ticket has it. |
| TicketService.OpenTicketsNewestFirst | bot/services/ticket_service.py:32-41 | The result has exactly the user's tickets whose status is not "closed", in strictly decreasing key order. |
| TicketService.GetActiveTickets | bot/services/ticket_service.py:32-41 | Over a valid store, the result has exactly the user's non-closed tickets, newest first. |
| TicketService.GetLastTicket | bot/services/ticket_service.py:50-56 | The result is the user's ticket with the greatest key, whatever its status. None means that the user has no ticket. |
| TicketService.LastOpenTicketHeadsActiveList | bot/services/ticket_service.py:32-56 | When the newest ticket is not closed, it is the first entry of the active list. |
| TicketService.CreateTicket | bot/services/ticket_service.py:58-78 | Corrected creation. The Plane issue is created before the Mattermost thread, both titled "<full name>: <title>". A failed Plane call stops before Mattermost. A row with status "new" and both remote ids is stored only when both calls succeed and the row fits the schema. Its description is the column's migration default `''`. Otherwise nothing is stored. |
| TicketService.CreateTicketAsWritten | bot/services/ticket_service.py:69-77 | As written, the row leaves the NOT NULL description unset. The same remote calls are made, the insert is refused, and nothing is ever stored. |
| TicketService.CreationAsWrittenOrphansRemoteObjects | bot/services/ticket_service.py:66-77 | When both remote calls succeed for a registered user and a title that fits, the corrected creation stores the ticket. The code as written has created both remote objects and stores nothing. |
| TicketService.CreatePendingTicket | bot/services/ticket_service.py:123-134 | One ticket is added with status "pending", the given owner, title and description, and no remote ids. No remote call is made. |
| TicketService.ActivateTicket | bot/services/ticket_service.py:136-162 | A missing owner aborts before any call and changes nothing. Otherwise the Mattermost thread is created first, then the Plane issue, both titled "#<id> <full name>: <title>". Status "active" and both ids are written only when both calls succeed; on any failure the store is unchanged. No other ticket changes. |
| TicketService.CancelTicket | bot/services/ticket_service.py:164-167 | Only that ticket's status changes, to "canceled". No other row changes. |
| TicketService.CloseTicket | bot/services/ticket_service.py:117-121 | That ticket's status becomes "closed" and `closed_at` is stamped. No other row changes. |
| TicketService.CloseAndCancelVersusActiveList | bot/services/ticket_service.py:117-121 | Closing takes a ticket off its owner's active list. Cancelling does not: a canceled ticket is still "not closed". |
| TicketService.AddMessageToTicket | bot/services/ticket_service.py:80-104 | A support message is stored with no remote call. A user message is pushed as a Plane comment and then as a Mattermost reply; a failed Plane push stops before Mattermost. It is stored only when both pushes succeed, so a failed push stores nothing. On success exactly one message with that content and sender is appended. |
| TicketService.AddMessageToTicketAsWritten | bot/services/ticket_service.py:85-87 | As written, a user message raises at the Plane push: nothing is sent and nothing is stored. |
| TicketService.AsWrittenDropsUserMessages | bot/services/ticket_service.py:80-104 | With both systems answering, the corrected operation stores the message and makes two pushes, while the code as written stores nothing and makes no push. |
| TicketService.FormatTicketsForKeyboard | bot/services/ticket_service.py:106-115 | Length and order are kept. Each entry has the ticket's id and status, and its title, or "Тикет #<id>" when the title is empty. |
| TicketService.FormattedTicketButtons | bot/services/ticket_service.py:106-115 | Every button built from the formatted list has a non-empty label and a payload that reads back as its ticket's id. |
| Keyboards.MainKeyboard | bot/keyboards.py:4-13 | There are two rows of one button each: "create" first, "select" second. |
| Keyboards.TicketsKeyboard | bot/keyboards.py:15-28 | There is one row per ticket, in input order. Each row holds one inline button with the ticket's label and the payload "ticket_<id>". |
| Keyboards.TicketButtonTextMarksNew | bot/keyboards.py:20-22 | The label ends in " -new" exactly for status "new". Without that marker, the label is the title when the key is present, even if empty, and "Тикет #<id>" only when the key is absent. |
| Keyboards.TicketCallbackRoundTrip | bot/keyboards.py:25 | Parsing a button's payload gives back the ticket id. |
| Keyboards.TicketCallbacksDistinct | bot/keyboards.py:25 | Different tickets get different payloads. |
| Keyboards.ConfirmationKeyboard | bot/keyboards.py:30-38 | One row holds two buttons: "confirm_ticket" first, then "cancel_ticket". |
| Text.Split | bot/utils/text_utils.py:15-18 | Every part is a non-empty run of non-whitespace characters. |
| Text.Strip | bot/handlers/registration.py:35 | The result is the slice of the input that follows its leading whitespace. Only whitespace precedes and follows it, the result neither starts nor ends with whitespace, and it splits into the same parts as the input. |
| Text.Lower | bot/handlers/tickets.py:52 | The length is kept. Every upper-case letter becomes the lower-case letter whose upper case (`UpperChar`, defined from the lower-case side) is that letter. Every other character is kept, and no upper-case letter remains. |
| Text.IsTitle | bot/utils/text_utils.py:23 | A word in title case contains an upper-case letter. |
| Text.TitleWordShape | bot/utils/text_utils.py:23 | For a word of letters only, title case means an upper-case letter followed by lower-case letters. |
| Text.SplitJoinSpace | bot/utils/text_utils.py:15 | Joining words with single spaces and splitting again gives back the words. |
| Text.SplitSpaced | bot/utils/text_utils.py:15 | Any whitespace before, between and after the words splits to the same words. |
| Text.DigitsValueOfNatToString | bot/keyboards.py:25 | The decimal rendering of an id reads back as that id. |
| TextUtils.ValidateFullName | bot/utils/text_utils.py:4-23 | True exactly when the name has at least two whitespace-separated parts and every part is in title case. |
| TextUtils.ValidateFullNameIgnoresSpacing | bot/utils/text_utils.py:15 | Adding, removing or collapsing whitespace around and between the parts does not change the verdict. |
| TextUtils.TruncateText | bot/utils/text_utils.py:39-53 | With an explicit bound (the source's default bound is 100), text that fits is returned unchanged. For a bound of at least 3, longer text becomes its first bound−3 characters plus "...", exactly bound long. Below 3, the negative slice makes the result longer than the bound. |
| TextUtils.TruncateTextIdempotent | bot/utils/text_utils.py:50-53 | For a bound of at least 3, truncating twice is the same as truncating once. |
| TicketUtils.GetActiveTicket | bot/utils/ticket_utils.py:7-37 | An unknown telegram id gives None. Otherwise the result is one of the user's tickets updated at or after now − active_time, with the latest update among them. None means that there is no such ticket. |
| TicketUtils.StatusEmoji | bot/utils/ticket_utils.py:49-57 | The emoji follows the four-entry table. '❓' is returned exactly for the statuses outside it. |
| TicketUtils.FormatTicketInfo | bot/utils/ticket_utils.py:56-61 | The summary starts with "<emoji> Тикет #<id>" and a newline, and contains "Статус: <status>". |
| TicketUtils.TicketInfoNamesTicket | bot/utils/ticket_utils.py:57 | The digits after "#" on the first line read back as the ticket's id. |
| Registration.CmdStart | bot/handlers/registration.py:12-30 | A registered user is greeted, with the session and the store unchanged. An unknown user is moved to the full-name step and no user is created. |
| Registration.StartIsIdempotent | bot/handlers/registration.py:12-30 | Sending /start twice gives the same answer and session as sending it once, with the store unchanged. |
| Registration.ProcessFullname | bot/handlers/registration.py:32-53 | Corrected registration, with company and shop stored as their migration default `''`. A name that strips to fewer than two parts is refused with nothing changed. An accepted name appends exactly one user with the sender's telegram id and the stripped text, and clears the session. A sender who already has a row, or whose telegram id does not fit the 32-bit column, is refused and nothing is stored. |
| Registration.Register | bot/handlers/registration.py:41-50 | Corrected insert, with company and shop stored as `''`. A sender who already has a row, or whose telegram id does not fit the 32-bit column, is refused with nothing stored and the session kept. Otherwise exactly one user is appended with the sender's telegram id and the given name, and the session is cleared. |
| Registration.ProcessFullnameAsWritten | bot/handlers/registration.py:35-48 | As written, the new row sets neither company nor shop, so every accepted name is refused at the insert. The store and the session stay as they were and there is no answer. A name with fewer than two parts is asked again. |
| Registration.RegistrationAsWrittenStoresNobody | bot/handlers/registration.py:41-48 | For a first-time sender with the name "иван петров", the corrected step stores one user and answers. The code as written stores nobody, keeps the full-name step and sends no answer. |
| Registration.RegistrationSkipsTitleCase | bot/handlers/registration.py:35-48 | A name of two or more parts whose first part starts with a lower-case letter registers a first-time sender, although the full-name validator rejects it: registration checks the part count only. |
| TicketHandlers.ProcessTitle | bot/handlers/tickets.py:14-31 | A stripped title over 100 characters is refused with the session unchanged. An unknown sender gets the session cleared. Otherwise the stripped title is stored in the session and the description step follows. Nothing is stored in the database. |
| TicketHandlers.ProcessDescription | bot/handlers/tickets.py:33-47 | The text, not stripped, becomes the initial message, and the confirmation step follows. The title and the store are unchanged. |
| TicketHandlers.ProcessConfirmation | bot/handlers/tickets.py:49-86 | An answer whose lower case is neither "да" nor "нет" is asked again with nothing changed. "нет", or "да" with a missing or empty title or initial message, clears the session and creates nothing. On the "да" path the ticket is created and the session is cleared whether creation succeeds or fails. |
| TicketHandlers.ConfirmationIgnoresCase | bot/handlers/tickets.py:52-56 | "Да" and "НЕТ" are recognised as answers, while " да" with a leading space is not. |
| TicketHandlers.SelectedTicket | bot/handlers/tickets.py:96-100 | A ticket is found only for a selected id that is truthy, that is, not 0, and that a stored ticket has; a negative id finds nothing because keys are natural numbers. The ticket found is stored and carries the selected id. |
| TicketHandlers.ProcessMessage | bot/handlers/tickets.py:88-117 | Corrected routing, through the corrected `add_message_to_ticket`. An unregistered sender changes nothing. Otherwise the text goes to the selected ticket if it exists and is not closed, else to the newest ticket if that is not closed. The matching answer is sent exactly when the add succeeds; a failed add raises and nothing is answered. Else nothing is stored, no call is made, and the state becomes the title step. |
| TicketHandlers.ProcessMessageAsWritten | bot/handlers/tickets.py:99-117 | As written, the routing is the same, but a message that reaches a ticket stores nothing, makes no call and gets no answer. Only an unregistered sender and the start of a new ticket are answered. The store never changes. |
| TicketHandlers.RoutingAsWrittenLosesMessage | bot/handlers/tickets.py:107-111 | For a user whose only ticket is active, when both pushes succeed, the corrected routing stores the message, makes two pushes and answers. The code as written stores nothing and stays silent. |
| TicketHandlers.RoutingSkipsOlderOpenTicket | bot/handlers/tickets.py:107-117 | With an older ticket still active and the newest one closed, the text starts a new ticket instead of reaching the open one. |
| TicketHandlers.RoutingSampleActiveList | bot/services/ticket_service.py:32-41 | In that example the older ticket is the only entry on the active list. |
| Dispatch.PartitionAt | bot/handlers/registration.py:12 | Partitioning at a separator gives the text before its first occurrence and the text after it. Without the separator, the whole text and "". |
| Dispatch.PartitionAtFirst | bot/handlers/registration.py:12 | Partitioning `a + "@" + b`, where `a` has no "@", gives back `a` and `b`. |
| Dispatch.FirstWordDecides | bot/handlers/registration.py:12 | Only the first word decides whether a message is the /start command. Anything after whitespace is an argument. |
| Dispatch.MentionDecides | bot/handlers/registration.py:12 | "/start@<name>" is the /start command exactly when the name is empty or equals the bot's username, ignoring case. |
| Dispatch.StartCommandForms | bot/handlers/registration.py:12 | "/start", "/start 42" and "/start@bot" for the bot "Bot" reach the /start handler in every state. "/start@me" and "/starts" do not. |
| Dispatch.Route | bot/main.py:22-24 | Exactly the /start command goes to its handler, in every state. Other text in the four waiting states goes to that state's handler, and any other text goes to the catch-all handler. |
| Dispatch.Step | bot/handlers/tickets.py:14-117 | Any single update keeps the schema invariant and the remote-id invariant, and removes no row. Only confirmation and free-text routing call a remote system. /start, title and description write nothing. |
| Dispatch.Run | bot/handlers/tickets.py:14-117 | Any sequence of updates keeps both invariants and removes no row. |
| Webhook.RootId | bot/handlers/mattermost.py:33 | The root is the post's "root_id" when that key is present, otherwise the post id. |
| Webhook.HandleWebhook | bot/handlers/mattermost.py:15-75 | Corrected, with the support identity as a parameter. These exits write nothing and send nothing: a missing post id ("post_id not found"), a failed lookup ("post not found", or a 500 when it raises), an unknown ticket ("ticket not found") and a missing owner ("user not found"). Past them exactly one support message with the payload text is stored before the echo check. A post by the support identity answers "ignored" with no send. Otherwise a non-empty stripped text is sent once to the owner's chat, and the answer is "success", or a 500 when the send fails. |
| Webhook.IsEcho | bot/handlers/mattermost.py:58 | A post counts as the support account's own only when it names an author. A payload with neither a user id nor a user name is never an echo. |
| Webhook.EchoNeverForwarded | bot/handlers/mattermost.py:58-60 | A post by the support account is never sent to Telegram and never answered "success". |
| Webhook.WebhookStoresIffResolved | bot/handlers/mattermost.py:37-56 | A message is stored exactly when the post resolves to a ticket and that ticket's owner. |
| Scenarios.PendingThenActivated | bot/services/ticket_service.py:123-162 | Creating a pending ticket and activating it with a thread id no other ticket carries succeeds. It leaves one more ticket, the user's, as the only one in that thread, and the messages are untouched. |
| Webhook.HandleWebhookAsWritten | bot/handlers/mattermost.py:15-75 | As written, the same exits answer the same. A post that resolves to a ticket and its owner has its support message stored and then always gets a 500. Nothing is ever sent to Telegram. |
| Webhook.WebhookAsWrittenNeverRelays | bot/handlers/mattermost.py:56-58 | For every input, the webhook as written stores what the corrected one stores and sends nothing. It answers 500 exactly where a message was stored, and elsewhere answers as the corrected one does. |
| Scenarios.ReplyLostAsWritten | bot/handlers/mattermost.py:56-66 | A reply that the corrected webhook sends to the ticket's owner is stored but not sent by the webhook as written, which answers 500. |
| Scenarios.ReplyReachesOwner | bot/handlers/mattermost.py:33-71 | A non-blank reply posted by anyone but the support account in the thread of exactly one ticket is stored once on that ticket and sent once to the ticket's owner. |
| Scenarios.RelayRoundTrip | bot/services/ticket_service.py:123-162 | A pending ticket, activated with a fresh thread id and then answered in that thread by anyone but the support account, gets exactly one support message with the reply. Exactly one Telegram message goes to the ticket's owner. |

## Left out

- Remote wrappers (`bot/services/plane.py`, `bot/services/mattermost.py`): HTTP and driver calls. Every call is an `Ok(id)` or `Fail` input. The Mattermost wrapper shown has no `get_post`, so the webhook's post lookup is the `PostLookup` input.
- Module linkage: the webhook module imports names from the ticket handler module that it does not define, and the state group in `bot/fsm.py` has no `waiting_title`. Each function's own logic is modelled, not the imports.
- `TicketService.add_message` (`bot/services/ticket_service.py:169-179`): it sets fields the message record does not have, so it cannot run.
- `extract_issue_id` (`bot/utils/text_utils.py:25-37`): its pattern has no capture group, so reading group 1 raises.
- `select_existing_ticket` (`bot/handlers/tickets.py:119-152`): it uses names that are never imported, and the catch-all handler declared before it receives its messages first. `Dispatch.Route` states the shadowing.
- Inline-button callbacks (`confirm_ticket`, `cancel_ticket`, `ticket_<id>`): no handler for them is part of this model, so only their payloads are modelled.
- Wiring and configuration: `bot/main.py`, `run.py`, `bot/config.py`, Redis session storage, the web app and the database session plumbing. The activity window is a parameter. The support identity is a parameter too, because the configuration class declares no support identity (see Findings).
- Migrations: schema changes only. Migration 003 drops the `updated_at` column that `get_active_ticket` filters on. The model keeps that column as a separate input (`TicketActivity`).
- Clocks and date formatting: timestamps are integers, and the two formatted dates of the ticket summary are inputs.
- Asynchrony: concurrent updates for one user are not modelled. Each update is handled whole.
- Reply wording: replies are a kind (`Conversation.Reply`), not a text.
- Updates without text: stickers, photos and the like are not modelled.
- A database failure at commit other than a schema constraint is not modelled. The constraints that reject a write are the 32-bit range of the telegram id, the unique telegram id, the NOT NULL columns, the foreign keys and the title length. Keys are assumed to stay within the 32-bit range.
- Two tickets can share a Mattermost post id: the schema does not forbid it. The lookup returns the first in key order.
- Text.IsTitle: Unicode case rules are restricted to Latin and basic Cyrillic letters. Any other character counts as uncased.
- Text.Lower: Unicode case rules are restricted to Latin and basic Cyrillic letters. Any other character is kept as it is.
- Webhook.HandleWebhook: it starts from a parsed JSON object. A body that is not valid JSON (bot/handlers/mattermost.py:19) or not an object makes the handler answer 500 through its exception branch, and that is not modelled. A payload field holding JSON null or a non-string value is not modelled either. An absent "text" is the empty string.
- Registration.ProcessFullname: it registers through the corrected insert. As written, every accepted name is refused at the insert (see Findings and `Registration.ProcessFullnameAsWritten`).
- Registration.Register: it stores company and shop as `''`. As written, neither is set and the insert always fails.
- TicketService.FindUserByTelegramId: a lookup by a telegram id outside the 32-bit range finds nobody. Depending on the database driver the query may instead raise; that is not modelled.
- Models.InsertUser: an unset company or shop is refused. The corrected registration passes `''`, the default the migration declares and the mapped class does not.
- TicketService.CreateTicket: it stores the description column as `''`. As written, the column is left unset and the insert always fails after both remote calls (see Findings and `TicketService.CreateTicketAsWritten`).
- TicketHandlers.ProcessConfirmation: it creates through the corrected `TicketService.CreateTicket`. As written, a confirmed ticket always ends in the creation-failed answer, with both remote objects made and nothing stored.
- TicketHandlers.ProcessMessage: it routes through the corrected `add_message_to_ticket`. As written, a routed message is neither stored nor relayed nor answered (`TicketHandlers.ProcessMessageAsWritten`).
- Dispatch.Step: it composes the corrected handlers above. The as-written behaviour of each is stated by its `AsWritten` member.
- Dispatch.IsStartCommand: a caption instead of a text, and a prefix other than "/", are not modelled. The bot's username is the `botName` input.
- Webhook.HandleWebhook: it reads the support identity from a parameter. As written, `settings` has no support identity, so every resolved post raises after its message is stored (see Findings and `Webhook.HandleWebhookAsWritten`). `Scenarios.ReplyReachesOwner` and `Scenarios.RelayRoundTrip` are about this corrected webhook.
- TicketUtils.GetActiveTicket: it reads the last activity from the `TicketActivity` input. As written, the mapped `Ticket` (bot/models/models.py:20-31) has no `updated_at`, so the query at bot/utils/ticket_utils.py:33 raises for every known user. Only the unknown user's `None` is as written.
- TicketUtils.FormatTicketInfo: the last-update date is an input. As written, `ticket.updated_at` at bot/utils/ticket_utils.py:60 raises for every ticket, so no summary is ever produced.
- Primary keys: a key is the row's position plus one. A PostgreSQL sequence also spends a value on an insert that is then refused, for example by the unique telegram id, so real keys can skip values and exceed the position plus one. Key order is still insertion order.
- TicketService.OpenTicketsNewestFirst: newest first is descending key order. The queries (bot/services/ticket_service.py:40, :55) order by `created_at`, a client-side `datetime.utcnow` (bot/models/models.py:30); the model assumes that clock rises with the key. `TicketService.GetLastTicket` rests on the same assumption.
- TicketService.AddMessageToTicket: a sender type other than "user" or "support" is not modelled. The schema comment allows only those two.

## Findings

| source | as written | input that shows it | evidently intended | confidence | as-written member | corrected member |
|---|---|---|---|---|---|---|
| bot/services/ticket_service.py:87 | `add_message_to_ticket` calls the Plane wrapper with a keyword argument `is_from_support` that its `update_ticket` (bot/services/plane.py:27) does not declare, so a user message raises a TypeError before any request. The same holds for `is_bot` at the Mattermost call (line 94). The message is never relayed or stored. | Any user message routed to an existing ticket, e.g. "Принтер снова не печатает" sent to an active ticket | Push the comment to Plane, then to Mattermost, and store the message when both succeed | not executed | TicketService.AddMessageToTicketAsWritten | TicketService.AddMessageToTicket |
| bot/handlers/tickets.py:103 | `process_message` hands a routed message to `add_message_to_ticket`, which raises as in the row above. The exception escapes the handler, so the user gets no answer and the message is lost. The same holds at line 110. | A registered user with one active ticket sends "Принтер снова не печатает" | The message is relayed to both systems, stored, and acknowledged | not executed | TicketHandlers.ProcessMessageAsWritten | TicketHandlers.ProcessMessage |
| bot/handlers/registration.py:42-46 | The new `User` sets neither `company` nor `shop`. Both are `nullable=False` with no default in the mapped class (bot/models/models.py:13-14), so the ORM sends NULL and the commit at line 48 fails NOT NULL. The `server_default ''` is declared only in the migration. No user can register. | A first-time sender answers the name prompt with "Иван Петров" | The user is stored with empty company and shop, as the migration's default provides | not executed | Registration.ProcessFullnameAsWritten | Registration.ProcessFullname |
| bot/services/ticket_service.py:69-75 | The new `Ticket` does not set `description`, which is `nullable=False` with no default in the mapped class (bot/models/models.py:26). The commit at line 77 fails NOT NULL after the Plane issue and the Mattermost thread have been created. | A registered user confirms a ticket titled "Принтер" and both remote calls succeed | The ticket is stored with status "new" and both remote ids | not executed | TicketService.CreateTicketAsWritten | TicketService.CreateTicket |
| bot/handlers/mattermost.py:58 | The echo check reads `settings.MATTERMOST_SUPPORT_USER_ID` and `settings.MATTERMOST_SUPPORT_USERNAME`, which the settings class (bot/config.py:4-38) does not declare. Reading them raises AttributeError after the support message is committed at line 56, and lines 73-75 turn that into a 500. No reply ever reaches Telegram. | A support agent answers "Проверьте кабель" in the thread of an active ticket whose owner is registered | Skip posts by the configured support account and send every other non-blank reply to the ticket's owner | not executed | Webhook.HandleWebhookAsWritten | Webhook.HandleWebhook |

=== FILE: common.dfy ===
/** Shared vocabulary of the relay bot model: optional values, results of
    store operations, outcomes of calls into the two remote systems, and the
    log of remote calls an operation attempted. */
module Common {

  /** A possibly absent value (Python `None` or a missing dictionary key). */
  datatype Option<T> = None | Some(value: T) {

    /** The value, or `default` when absent (Python `d.get(key, default)`). */
    function GetOr(default: T): T {
      match this
      case Some(v) => v
      case None => default
    }
  }

  /** The two remote systems tickets are mirrored into. */
  datatype System = Plane | Mattermost

  /** Why an operation was aborted. */
  datatype Error =
    | OutOfRange               // an integer the 32-bit INTEGER column cannot hold
    | UniqueViolation          // a second user with the same telegram_id
    | NotNullViolation         // a NOT NULL column left unset, which the ORM sends as NULL
    | ForeignKeyViolation      // a row referencing a user or ticket that does not exist
    | ValueTooLong             // a title longer than the String(100) column allows
    | UserNotFound             // the ticket's owner could not be loaded
    | RemoteFailed(system: System)   // the remote call raised
    | BadArguments(system: System)   // the wrapper was called with a keyword it does not accept

  /** The range of a PostgreSQL INTEGER column (32-bit, two's complement). */
  const INT32_MIN: int := -0x8000_0000
  const INT32_MAX: int := 0x7FFF_FFFF

  predicate FitsInt32(x: int) {
    INT32_MIN <= x <= INT32_MAX
  }

  /** The result of an operation: a value, or the error it raised. */
  datatype Result<T> = Success(value: T) | Failure(error: Error)

  /** What one call into a remote system returned: the identifier of the
      object it created, or an exception. The network is not modelled: the
      outcome is an input of every operation that makes the call. */
  datatype Remote = Ok(id: string) | Fail

  /** One call made into a remote system, with the arguments it was given. */
  datatype Call =
    | CreateIssue(title: string, description: string)           // Plane: new issue
    | CreateThread(title: string, message: string)              // Mattermost: new root post
    | CommentIssue(issueId: Option<string>, comment: string)    // Plane: comment on an issue
    | CommentThread(threadId: Option<string>, message: string)  // Mattermost: reply in a thread
}

=== FILE: conversation.dfy ===
/** The per-user conversation: its states, the scratch data kept between
    steps, the incoming updates, and what one handled update produces. */
module Conversation {
  import opened Common
  import opened Models

  /** No state set, waiting for the full name at registration, the three
      ticket-creation steps, and the two ticket-selection states (declared,
      but entered by no handler of the model). */
  datatype State =
    | Idle
    | WaitingFullname
    | WaitingTitle
    | WaitingDescription
    | WaitingConfirmation
    | SelectingTicket
    | WaitingReply

  /** The session data fields the handlers read and write. */
  datatype Scratch = Scratch(title: Option<string>, initialMessage: Option<string>, selectedTicketId: Option<int>)

  const EmptyScratch := Scratch(None, None, None)

  datatype Session = Session(state: State, data: Scratch)

  /** The session after `state.clear()`: no state and no data. */
  const Cleared := Session(Idle, EmptyScratch)

  /** The Telegram account an update comes from. */
  datatype From = From(telegramId: int, username: Option<string>)

  /** Which answer the bot sends (the wording is not modelled). NoReply is an
      exception escaping the handler: nothing is answered. */
  datatype Reply =
    | Greeting
    | AskFullName
    | AskFullNameAgain
    | Registered
    | AskRegistration
    | TitleTooLong
    | AskDescription
    | AskConfirmation
    | AskYesNo
    | CreationCanceled
    | CreationRestart
    | TicketCreated
    | TicketCreationFailed
    | AddedToSelected
    | AddedToCurrent
    | AskNewTicketTitle
    | NoReply

  /** One handled update: the session and store after it, the answer, and
      the remote calls made. */
  datatype Turn = Turn(session: Session, store: Store, reply: Reply, calls: seq<Call>)

  /** The outcomes of the remote calls an update may trigger, the clock, and
      the bot's own username, which a command's @mention must name. */
  datatype Env = Env(plane: Remote, mattermost: Remote, now: int, botName: string)
}

=== FILE: dispatch.dfy ===
/** How one incoming text message is routed to a handler. The registration
    router is consulted before the ticket router, and within each router the
    handlers are tried in order of declaration: the /start command in any
    state, then the handler of the current state, then the catch-all message
    handler. */
module Dispatch {
  import opened Common
  import opened Text
  import opened Models
  import opened TicketService
  import opened Conversation
  import opened Registration
  import opened TicketHandlers

  /** The handler that receives an update. The selection-button handler is
      declared after the catch-all one and is therefore never reached. */
  datatype Handler = StartHandler | FullnameHandler | TitleHandler | DescriptionHandler | ConfirmationHandler | MessageHandler

  /** Python `s.partition(c)` without the separator: the text before the
      first `c` and the text after it, or all of `s` and "" when `c` does
      not occur. */
  function PartitionAt(s: string, c: char): (r: (string, string))
    ensures c in s ==> s == r.0 + [c] + r.1 && c !in r.0
    ensures c !in s ==> r == (s, "")
  {
    if |s| == 0 then ("", "")
    else if s[0] == c then ("", s[1..])
    else
      var rest := PartitionAt(s[1..], c);
      assert s == [s[0]] + s[1..];
      ([s[0]] + rest.0, rest.1)
  }

  /** The filter `Command("start")`: the first whitespace-separated word of
      the text is "/start", optionally followed by "@" and a mention; a
      non-empty mention must be the bot's own username, compared in lower
      case. Arguments after the first word are allowed. */
  predicate IsStartCommand(text: string, botName: string) {
    var words := Split(text);
    && |words| > 0 && |words[0]| > 0 && words[0][0] == '/'
    && var parts := PartitionAt(words[0][1..], '@');
       && parts.0 == "start"
       && (parts.1 == "" || botName == "" || Lower(parts.1) == Lower(botName))
  }

  /** The handler that receives a text message in `state`. */
  function Route(state: State, text: string, botName: string): (h: Handler)
    ensures IsStartCommand(text, botName) <==> h == StartHandler
    ensures !IsStartCommand(text, botName) ==>
      (h == MessageHandler <==> state !in {WaitingFullname, WaitingTitle, WaitingDescription, WaitingConfirmation})
    ensures !IsStartCommand(text, botName) && state == WaitingFullname ==> h == FullnameHandler
    ensures !IsStartCommand(text, botName) && state == WaitingTitle ==> h == TitleHandler
    ensures !IsStartCommand(text, botName) && state == WaitingDescription ==> h == DescriptionHandler
    ensures !IsStartCommand(text, botName) && state == WaitingConfirmation ==> h == ConfirmationHandler
  {
    if IsStartCommand(text, botName) then StartHandler
    else match state
      case WaitingFullname => FullnameHandler
      case WaitingTitle => TitleHandler
      case WaitingDescription => DescriptionHandler
      case WaitingConfirmation => ConfirmationHandler
      case _ => MessageHandler
  }

  /** Partitioning at the first separator recovers the text before it and
      the text after it. */
  lemma {:induction false} PartitionAtFirst(a: string, c: char, b: string)
    requires c !in a
    ensures PartitionAt(a + [c] + b, c) == (a, b)
  {
    if |a| > 0 {
      assert (a + [c] + b)[0] == a[0];
      assert (a + [c] + b)[1..] == a[1..] + [c] + b;
      PartitionAtFirst(a[1..], c, b);
      assert [a[0]] + a[1..] == a;
    } else {
      assert a + [c] + b == [c] + b;
    }
  }

  /** Only the first word of a message decides whether it is the /start
      command; what follows a separator is the command's argument. */
  lemma FirstWordDecides(w: string, rest: string, botName: string)
    requires IsWord(w) && (|rest| == 0 || IsSpace(rest[0]))
    ensures IsStartCommand(w + rest, botName) == IsStartCommand(w, botName)
  {
    SplitWordPrefix(w, rest);
    SplitWordPrefix(w, "");
    assert w + "" == w;
  }

  /** "/start@" followed by a mention is the /start command exactly when the
      mention is empty or names the bot, ignoring case. */
  lemma MentionDecides(mention: string, botName: string)
    requires forall i :: 0 <= i < |mention| ==> !IsSpace(mention[i])
    ensures IsStartCommand("/start@" + mention, botName)
            <==> mention == "" || botName == "" || Lower(mention) == Lower(botName)
  {
    var w := "/start@" + mention;
    assert IsWord(w) by {
      forall i | 0 <= i < |w| ensures !IsSpace(w[i]) {
        if i >= 7 { assert w[i] == mention[i - 7]; }
      }
    }
    FirstWordDecides(w, "", botName);
    assert w + "" == w;
    SplitWordPrefix(w, "");
    assert w[1..] == "start" + ['@'] + mention;
    PartitionAtFirst("start", '@', mention);
  }

  /** "/start" alone, with an argument, or with the bot's own name in any
      case reaches the /start handler whatever the state; a longer command
      word or another bot's name does not. */
  lemma StartCommandForms(state: State)
    ensures Route(state, "/start", "Bot") == StartHandler
    ensures Route(state, "/start 42", "Bot") == StartHandler
    ensures Route(state, "/start@bot", "Bot") == StartHandler
    ensures Route(state, "/start@me", "Bot") != StartHandler
    ensures Route(state, "/starts", "Bot") != StartHandler
  {
    StartAlone();
    StartWithArgument();
    StartWithOwnName();
    StartWithOtherName();
    LongerCommand();
  }

  lemma StartWithArgument()
    ensures IsStartCommand("/start 42", "Bot")
  {
    StartAlone();
    assert "/start 42" == "/start" + " 42";
    FirstWordDecides("/start", " 42", "Bot");
  }

  lemma StartWithOwnName()
    ensures IsStartCommand("/start@bot", "Bot")
  {
    MentionDecides("bot", "Bot");
    assert Lower("bot") == Lower("Bot");
    assert "/start@bot" == "/start@" + "bot";
  }

  lemma StartWithOtherName()
    ensures !IsStartCommand("/start@me", "Bot")
  {
    MentionDecides("me", "Bot");
    assert |Lower("me")| != |Lower("Bot")|;
    assert "/start@me" == "/start@" + "me";
  }

  lemma StartAlone()
    ensures IsStartCommand("/start", "Bot")
  {
    SplitWordPrefix("/start", "");
    assert "/start" + "" == "/start";
    assert "/start"[1..] == "start";
  }

  lemma LongerCommand()
    ensures !IsStartCommand("/starts", "Bot")
  {
    SplitWordPrefix("/starts", "");
    assert "/starts" + "" == "/starts";
    assert "/starts"[1..] == "starts";
  }

  /** One update handled end to end. Whatever the update and the outcomes
      of the remote calls, the schema constraints and the remote-id
      invariant of the store are kept and no row is removed. */
  function Step(session: Session, store: Store, from: From, text: string, env: Env): (t: Turn)
    requires Valid(store)
    ensures Valid(t.store)
    ensures RemoteIdsConsistent(store) ==> RemoteIdsConsistent(t.store)
    ensures Grows(store, t.store)
    ensures Route(session.state, text, env.botName) in {StartHandler, TitleHandler, DescriptionHandler} ==>
      t.store == store && t.calls == []
    ensures Route(session.state, text, env.botName) == FullnameHandler ==> t.calls == [] && store.tickets == t.store.tickets
    ensures t.calls != [] ==> Route(session.state, text, env.botName) in {ConfirmationHandler, MessageHandler}
  {
    match Route(session.state, text, env.botName)
    case StartHandler => CmdStart(session, store, from)
    case FullnameHandler => ProcessFullname(session, store, from, text, env.now)
    case TitleHandler => ProcessTitle(session, store, from, text)
    case DescriptionHandler => ProcessDescription(session, store, text)
    case ConfirmationHandler => ProcessConfirmation(session, store, from, text, env)
    case MessageHandler => ProcessMessage(session, store, from, text, env)
  }

  /** A run of text messages from one sender, each with its own remote
      outcomes. */
  function Run(session: Session, store: Store, from: From, texts: seq<string>, envs: seq<Env>): (t: Turn)
    requires Valid(store) && |envs| == |texts|
    ensures Valid(t.store)
    ensures RemoteIdsConsistent(store) ==> RemoteIdsConsistent(t.store)
    ensures Grows(store, t.store)
    decreases |texts|
  {
    if texts == [] then Turn(session, store, NoReply, [])
    else
      var first := Step(session, store, from, texts[0], envs[0]);
      var rest := Run(first.session, first.store, from, texts[1..], envs[1..]);
      Turn(rest.session, rest.store, rest.reply, first.calls + rest.calls)
  }
}

=== FILE: keyboards.dfy ===
/** The chat keyboards: the persistent two-button menu, the per-ticket
    selection buttons, and the confirm/cancel pair. */
module Keyboards {
  import opened Common
  import opened Text
  import opened Models

  /** A reply-keyboard button (sends its text) or an inline button (sends its
      callback payload). */
  datatype Button = TextButton(text: string) | InlineButton(text: string, callbackData: string)

  /** Rows of buttons, top to bottom. */
  type Keyboard = seq<seq<Button>>

  /** A ticket as the dictionary the keyboard reads: `title` is None when the
      "title" key is absent. */
  datatype TicketEntry = TicketEntry(id: nat, title: Option<string>, status: string)

  const CREATE_TICKET_TEXT: string := "Создать новую заявку"
  const SELECT_TICKET_TEXT: string := "Выбрать существующую заявку"
  const CONFIRM_TEXT: string := "✅ Подтвердить"
  const CANCEL_TEXT: string := "❌ Отмена"
  const CONFIRM_CALLBACK: string := "confirm_ticket"
  const CANCEL_CALLBACK: string := "cancel_ticket"
  const CALLBACK_PREFIX: string := "ticket_"
  const NEW_MARKER: string := " -new"

  /** "Тикет #<id>", the label of a ticket without a title. */
  function DefaultTicketLabel(id: nat): string {
    "Тикет #" + NatToString(id)
  }

  /** The persistent menu: "create" on the first row, "select" on the second. */
  function MainKeyboard(): (k: Keyboard)
    ensures |k| == 2 && |k[0]| == 1 && |k[1]| == 1
    ensures k[0][0] == TextButton(CREATE_TICKET_TEXT) && k[1][0] == TextButton(SELECT_TICKET_TEXT)
  {
    [[TextButton(CREATE_TICKET_TEXT)], [TextButton(SELECT_TICKET_TEXT)]]
  }

  /** One row holding the confirm button, then the cancel button. */
  function ConfirmationKeyboard(): (k: Keyboard)
    ensures |k| == 1 && |k[0]| == 2
    ensures k[0][0].InlineButton? && k[0][0].callbackData == CONFIRM_CALLBACK
    ensures k[0][1].InlineButton? && k[0][1].callbackData == CANCEL_CALLBACK
  {
    [[InlineButton(CONFIRM_TEXT, CONFIRM_CALLBACK), InlineButton(CANCEL_TEXT, CANCEL_CALLBACK)]]
  }

  /** The button text: the title when the key is present (even when it is
      empty), the default label otherwise, then " -new" for a new ticket. */
  function TicketButtonText(e: TicketEntry): string {
    var base := e.title.GetOr(DefaultTicketLabel(e.id));
    if e.status == NEW then base + NEW_MARKER else base
  }

  /** "ticket_<id>", the callback payload of a ticket's button. */
  function TicketCallback(id: nat): string {
    CALLBACK_PREFIX + NatToString(id)
  }

  /** One inline button per ticket, one per row, in the order given. */
  function TicketsKeyboard(entries: seq<TicketEntry>): (k: Keyboard)
    ensures |k| == |entries|
    ensures forall i :: 0 <= i < |entries| ==>
      k[i] == [InlineButton(TicketButtonText(entries[i]), TicketCallback(entries[i].id))]
  {
    if |entries| == 0 then []
    else
      var last := entries[|entries| - 1];
      TicketsKeyboard(entries[..|entries| - 1]) + [[InlineButton(TicketButtonText(last), TicketCallback(last.id))]]
  }

  /** Reads a ticket id back out of a callback payload. */
  function CallbackTicketId(data: string): Option<nat> {
    if StartsWith(data, CALLBACK_PREFIX) && |data| > |CALLBACK_PREFIX| && AllDigits(data[|CALLBACK_PREFIX|..])
    then Some(DigitsValue(data[|CALLBACK_PREFIX|..]))
    else None
  }

  /** A ticket button's payload names its ticket: reading it back gives the id. */
  lemma TicketCallbackRoundTrip(id: nat)
    ensures CallbackTicketId(TicketCallback(id)) == Some(id)
  {
    var data := TicketCallback(id);
    assert data[|CALLBACK_PREFIX|..] == NatToString(id);
    assert data[..|CALLBACK_PREFIX|] == CALLBACK_PREFIX;
    DigitsValueOfNatToString(id);
  }

  /** Buttons of distinct tickets carry distinct payloads. */
  lemma TicketCallbacksDistinct(a: nat, b: nat)
    requires a != b
    ensures TicketCallback(a) != TicketCallback(b)
  {
    TicketCallbackRoundTrip(a);
    TicketCallbackRoundTrip(b);
  }

  /** The " -new" marker is added exactly for status "new": stripping it off a
      new ticket's text, or taking a non-new ticket's text as it is, gives the
      title when the key is present and the default label when it is absent. */
  lemma TicketButtonTextMarksNew(e: TicketEntry)
    ensures e.status == NEW ==> EndsWith(TicketButtonText(e), NEW_MARKER)
    ensures var base := if e.status == NEW
                        then TicketButtonText(e)[..|TicketButtonText(e)| - |NEW_MARKER|]
                        else TicketButtonText(e);
            base == (if e.title.Some? then e.title.value else DefaultTicketLabel(e.id))
  {
    var base := e.title.GetOr(DefaultTicketLabel(e.id));
    if e.status == NEW {
      assert TicketButtonText(e) == base + NEW_MARKER;
      assert (base + NEW_MARKER)[..|base|] == base;
      assert (base + NEW_MARKER)[|base|..] == NEW_MARKER;
    }
  }
}

=== FILE: models.dfy ===
/** The persisted records (users, tickets, ticket messages), the store that
    holds them, the constraints the database enforces on them, and the three
    inserts every operation goes through. A primary key is taken to be the
    row's position plus one: this assumes that no refused insert has spent a
    value of the key sequence. */
module Models {
  import opened Common

  /** Ticket statuses written by the bot (the column itself is a free string). */
  const PENDING: string := "pending"
  const NEW: string := "new"
  const ACTIVE: string := "active"
  const CANCELED: string := "canceled"
  const CLOSED: string := "closed"

  /** Capacity of the String(100) title column. */
  const TITLE_MAX: nat := 100

  datatype User = User(
    id: nat,
    telegramId: int,
    username: Option<string>,
    fullName: string,
    company: string,
    shop: string,
    registeredAt: int,
    isActive: bool)

  datatype Ticket = Ticket(
    id: nat,
    userId: nat,
    title: string,
    description: string,
    planeTicketId: Option<string>,
    mattermostPostId: Option<string>,
    status: string,
    createdAt: int,
    closedAt: Option<int>)

  /** The `sender_type` column: "user" or "support". */
  datatype SenderType = FromUser | FromSupport

  datatype Message = Message(
    id: nat,
    ticketId: nat,
    senderType: SenderType,
    content: string,
    createdAt: int)

  /** The three tables, each in insertion (= creation) order. */
  datatype Store = Store(users: seq<User>, tickets: seq<Ticket>, messages: seq<Message>)

  const EmptyStore := Store([], [], [])

  predicate UserExists(st: Store, userId: nat) {
    exists i :: 0 <= i < |st.users| && st.users[i].id == userId
  }

  predicate TicketExists(st: Store, ticketId: nat) {
    exists i :: 0 <= i < |st.tickets| && st.tickets[i].id == ticketId
  }

  predicate TelegramIdTaken(st: Store, telegramId: int) {
    exists i :: 0 <= i < |st.users| && st.users[i].telegramId == telegramId
  }

  /** A complete user row with this telegram_id is still refused: the id does
      not fit the column, or another user already has it. */
  predicate TelegramIdRefused(st: Store, telegramId: int) {
    !FitsInt32(telegramId) || TelegramIdTaken(st, telegramId)
  }

  /** The constraints of the schema: keys that follow the row position (the
      key assumption above), a unique and
      present telegram_id, tickets that reference an existing user and fit
      the title column, messages that reference an existing ticket. */
  predicate Valid(st: Store) {
    && (forall i :: 0 <= i < |st.users| ==> st.users[i].id == i + 1)
    && (forall i, j :: 0 <= i < j < |st.users| ==> st.users[i].telegramId != st.users[j].telegramId)
    && (forall i :: 0 <= i < |st.tickets| ==>
          && st.tickets[i].id == i + 1
          && 1 <= st.tickets[i].userId <= |st.users|
          && |st.tickets[i].title| <= TITLE_MAX)
    && (forall i :: 0 <= i < |st.messages| ==>
          && st.messages[i].id == i + 1
          && 1 <= st.messages[i].ticketId <= |st.tickets|)
  }

  /** Insert a user row. A telegram_id outside the 32-bit INTEGER column is
      refused before anything else, since the value cannot even be sent. An
      attribute left unset (`None`) is sent as NULL, because the mapped
      column declares no default of its own; company and shop are NOT NULL,
      so an unset one aborts the insert before the unique telegram_id is
      checked. */
  function InsertUser(st: Store, telegramId: int, username: Option<string>, fullName: string,
                      company: Option<string>, shop: Option<string>, now: int): (r: Result<Store>)
    ensures r.Failure? <==> !FitsInt32(telegramId) || company.None? || shop.None? || TelegramIdTaken(st, telegramId)
    ensures r.Failure? ==> r.error == (if !FitsInt32(telegramId) then OutOfRange
                                       else if company.None? || shop.None? then NotNullViolation
                                       else UniqueViolation)
    ensures r.Success? ==>
      && |r.value.users| == |st.users| + 1
      && r.value.users[..|st.users|] == st.users && st.users <= r.value.users
      && var u := r.value.users[|st.users|];
         && u.id == |st.users| + 1 && u.telegramId == telegramId && u.fullName == fullName && u.username == username
         && u.company == company.value && u.shop == shop.value
    ensures r.Success? ==> r.value.tickets == st.tickets && r.value.messages == st.messages
    ensures r.Success? && Valid(st) ==> Valid(r.value)
  {
    if !FitsInt32(telegramId) then Failure(OutOfRange)
    else if company.None? || shop.None? then Failure(NotNullViolation)
    else if TelegramIdTaken(st, telegramId) then Failure(UniqueViolation)
    else Success(st.(users := st.users + [User(|st.users| + 1, telegramId, username, fullName,
                                               company.value, shop.value, now, true)]))
  }

  /** A Telegram user id that needs more than 32 bits, for example 3000000000,
      is refused even from an empty table, while the largest 32-bit id is
      stored. */
  lemma WideTelegramIdRefused()
    ensures InsertUser(EmptyStore, 3_000_000_000, None, "Иван Петров", Some(""), Some(""), 0) == Failure(OutOfRange)
    ensures InsertUser(EmptyStore, INT32_MAX, None, "Иван Петров", Some(""), Some(""), 0).Success?
  {
  }

  /** Insert a ticket row. The database rejects, in this order, a title
      longer than the column, an unset (NULL) description and a user_id
      that references no user. */
  function InsertTicket(st: Store, userId: nat, title: string, description: Option<string>,
                        planeTicketId: Option<string>, mattermostPostId: Option<string>,
                        status: string, now: int): (r: Result<Store>)
    ensures r.Success? <==> |title| <= TITLE_MAX && description.Some? && UserExists(st, userId)
    ensures r.Failure? && |title| > TITLE_MAX ==> r.error == ValueTooLong
    ensures r.Failure? && |title| <= TITLE_MAX && description.None? ==> r.error == NotNullViolation
    ensures r.Success? ==>
      && r.value.users == st.users && r.value.messages == st.messages
      && r.value.tickets == st.tickets + [Ticket(|st.tickets| + 1, userId, title, description.value,
                                                 planeTicketId, mattermostPostId, status, now, None)]
    ensures r.Success? && Valid(st) ==> Valid(r.value)
  {
    if |title| > TITLE_MAX then Failure(ValueTooLong)
    else if description.None? then Failure(NotNullViolation)
    else if !UserExists(st, userId) then Failure(ForeignKeyViolation)
    else Success(st.(tickets := st.tickets + [Ticket(|st.tickets| + 1, userId, title, description.value,
                                                     planeTicketId, mattermostPostId, status, now, None)]))
  }

  /** Append a message row for a ticket read from the store (its foreign
      key holds by construction). */
  function AppendMessage(st: Store, ticketId: nat, sender: SenderType, content: string, now: int): (r: Store)
    requires TicketExists(st, ticketId)
    ensures r.users == st.users && r.tickets == st.tickets
    ensures r.messages == st.messages + [Message(|st.messages| + 1, ticketId, sender, content, now)]
    ensures Valid(st) ==> Valid(r)
  {
    st.(messages := st.messages + [Message(|st.messages| + 1, ticketId, sender, content, now)])
  }

  /** Write back a changed ticket row: its key, owner and title stay. */
  function UpdateTicket(st: Store, index: nat, t: Ticket): (r: Store)
    requires index < |st.tickets|
    requires t.id == st.tickets[index].id && t.userId == st.tickets[index].userId && t.title == st.tickets[index].title
    ensures r.users == st.users && r.messages == st.messages
    ensures |r.tickets| == |st.tickets| && r.tickets[index] == t
    ensures forall j :: 0 <= j < |st.tickets| && j != index ==> r.tickets[j] == st.tickets[j]
    ensures Valid(st) ==> Valid(r)
  {
    st.(tickets := st.tickets[index := t])
  }

  /** The store only grows: rows are added, never removed, and users and
      messages are never rewritten. */
  predicate Grows(before: Store, after: Store) {
    && before.users <= after.users
    && |before.tickets| <= |after.tickets|
    && before.messages <= after.messages
  }
}

=== FILE: registration.dfy ===
/** The /start command and the full-name step of registration. */
module Registration {
  import opened Common
  import opened Text
  import opened Models
  import opened TicketService
  import opened TextUtils
  import opened Conversation

  /** cmd_start: a registered user is greeted and nothing else changes; an
      unknown one is asked for a full name, and no user is created yet. */
  function CmdStart(session: Session, store: Store, from: From): (t: Turn)
    ensures t.store == store && t.calls == []
    ensures TelegramIdTaken(store, from.telegramId) ==> t.session == session && t.reply == Greeting
    ensures !TelegramIdTaken(store, from.telegramId) ==>
      t.session == Session(WaitingFullname, session.data) && t.reply == AskFullName
  {
    match FindUserByTelegramId(store.users, from.telegramId)
    case Some(_) => Turn(session, store, Greeting, [])
    case None => Turn(Session(WaitingFullname, session.data), store, AskFullName, [])
  }

  /** /start twice in a row: no second user row, the same answer both times. */
  lemma StartIsIdempotent(session: Session, store: Store, from: From)
    ensures var once := CmdStart(session, store, from);
            var twice := CmdStart(once.session, once.store, from);
            twice.store == store && twice.reply == once.reply && twice.session == once.session
  {
  }

  /** process_fullname, corrected: the stripped text must have at least two
      whitespace-separated parts (title case is not checked here). A rejected
      name changes nothing; an accepted one creates exactly one user with the
      sender's Telegram id and the stripped text as full name, and clears the
      session. A sender who already has a row, or whose id does not fit the
      32-bit column, makes the insert raise: nothing is stored and the session
      stays. */
  function ProcessFullname(session: Session, store: Store, from: From, text: string, now: int): (t: Turn)
    ensures t.calls == []
    ensures |Split(text)| < 2 ==> t == Turn(session, store, AskFullNameAgain, [])
    ensures |Split(text)| >= 2 && TelegramIdRefused(store, from.telegramId) ==> t == Turn(session, store, NoReply, [])
    ensures |Split(text)| >= 2 && !TelegramIdRefused(store, from.telegramId) ==>
      && t.session == Cleared && t.reply == Registered
      && t.store.tickets == store.tickets && t.store.messages == store.messages
      && |t.store.users| == |store.users| + 1 && t.store.users[..|store.users|] == store.users
      && t.store.users[|store.users|].telegramId == from.telegramId
      && t.store.users[|store.users|].fullName == Strip(text)
      && |Split(t.store.users[|store.users|].fullName)| >= 2
    ensures Valid(store) ==> Valid(t.store)
    ensures Grows(store, t.store)
  {
    var fullName := Strip(text);
    if |Split(fullName)| < 2 then Turn(session, store, AskFullNameAgain, [])
    else Register(session, store, from, fullName, now)
  }

  /** The insert of an accepted name and the session it leaves; company and
      shop are stored as the empty string their migration declares as server
      default. */
  function Register(session: Session, store: Store, from: From, fullName: string, now: int): (t: Turn)
    ensures t.calls == []
    ensures TelegramIdRefused(store, from.telegramId) ==> t == Turn(session, store, NoReply, [])
    ensures !TelegramIdRefused(store, from.telegramId) ==>
      && t.session == Cleared && t.reply == Registered
      && t.store.tickets == store.tickets && t.store.messages == store.messages
      && |t.store.users| == |store.users| + 1 && t.store.users[..|store.users|] == store.users
      && t.store.users[|store.users|].telegramId == from.telegramId
      && t.store.users[|store.users|].fullName == fullName
    ensures Valid(store) ==> Valid(t.store)
    ensures Grows(store, t.store)
  {
    var inserted := InsertUser(store, from.telegramId, from.username, fullName, Some(""), Some(""), now);
    if inserted.Failure? then Turn(session, store, NoReply, [])
    else Turn(Cleared, inserted.value, Registered, [])
  }

  /** process_fullname as written: the new row sets neither company nor
      shop, so the insert sends NULL into two NOT NULL columns and raises.
      Every accepted name leaves the store and the session as they were and
      gets no answer; a rejected one is asked again. */
  function ProcessFullnameAsWritten(session: Session, store: Store, from: From, text: string, now: int): (t: Turn)
    ensures |Split(text)| < 2 ==> t == Turn(session, store, AskFullNameAgain, [])
    ensures |Split(text)| >= 2 ==> t == Turn(session, store, NoReply, [])
  {
    var fullName := Strip(text);
    if |Split(fullName)| < 2 then Turn(session, store, AskFullNameAgain, [])
    else
      match InsertUser(store, from.telegramId, from.username, fullName, None, None, now)
      case Failure(_) => Turn(session, store, NoReply, [])
  }

  /** A first-time sender with a two-part name is registered by the
      corrected step, while the code as written stores nobody and answers
      nothing, so the sender stays in the full-name step. */
  lemma RegistrationAsWrittenStoresNobody(session: Session, from: From, now: int)
    requires FitsInt32(from.telegramId)
    ensures ProcessFullname(session, EmptyStore, from, "иван петров", now).reply == Registered
    ensures |ProcessFullname(session, EmptyStore, from, "иван петров", now).store.users| == 1
    ensures ProcessFullnameAsWritten(session, EmptyStore, from, "иван петров", now) == Turn(session, EmptyStore, NoReply, [])
  {
    SampleNameRegisters(session, from, now);
  }

  /** Registration is looser than validate_full_name: a name of two or more
      parts whose first part starts with a lower-case letter is registered by
      a first-time sender, and the validator rejects it. */
  lemma RegistrationSkipsTitleCase(session: Session, store: Store, from: From, text: string, now: int)
    requires |Split(text)| >= 2 && IsLowerLetter(Split(text)[0][0])
    requires !TelegramIdRefused(store, from.telegramId)
    ensures ProcessFullname(session, store, from, text, now).reply == Registered
    ensures !ValidateFullName(text)
  {
    assert !IsTitle(Split(text)[0]);
  }

  lemma SampleNameRegisters(session: Session, from: From, now: int)
    requires FitsInt32(from.telegramId)
    ensures ProcessFullname(session, EmptyStore, from, "иван петров", now).reply == Registered
  {
    SampleNameParts();
    assert !TelegramIdRefused(EmptyStore, from.telegramId);
  }

  /** The sample name splits into its two lower-case parts. */
  lemma SampleNameParts()
    ensures Split("иван петров") == ["иван", "петров"]
  {
    var parts := ["иван", "петров"];
    assert IsWord(parts[0]) && IsWord(parts[1]);
    assert JoinSpace(parts) == "иван петров";
    SplitJoinSpace(parts);
  }
}

=== FILE: scenarios.dfy ===
/** Whole-flow properties that cross the service and the webhook. */
module Scenarios {
  import opened Common
  import opened Text
  import opened Models
  import opened TicketService
  import opened Webhook

  /** In a valid store a user row is found by its own key. */
  lemma FindUserByOwnId(st: Store, u: User)
    requires Valid(st) && u in st.users
    ensures FindUserById(st.users, u.id) == Some(u)
  {
    var i :| 0 <= i < |st.users| && st.users[i] == u;
    var found := FindUserById(st.users, u.id);
    assert found.Some? by {
      assert st.users[i].id == u.id;
    }
    var j :| 0 <= j < |st.users| && st.users[j] == found.value;
    assert st.users[j].id == j + 1 && st.users[i].id == i + 1;
  }

  /** A thread id carried by exactly one ticket finds that ticket. */
  lemma FindTicketByUniquePostId(tickets: seq<Ticket>, k: nat, postId: string)
    requires k < |tickets| && tickets[k].mattermostPostId == Some(postId)
    requires forall j :: 0 <= j < |tickets| && j != k ==> tickets[j].mattermostPostId != Some(postId)
    ensures FindTicketByPostId(tickets, postId) == Some(tickets[k])
  {
    var found := FindTicketByPostId(tickets, postId);
    var j :| 0 <= j < |tickets| && tickets[j] == found.value;
  }

  /** Ticket `k` of a valid store belongs to `u` and is the only ticket
      whose Mattermost thread is `threadId`. */
  predicate OnlyThread(st: Store, k: nat, u: User, threadId: string) {
    && Valid(st) && k < |st.tickets| && u in st.users && st.tickets[k].userId == u.id
    && st.tickets[k].mattermostPostId == Some(threadId)
    && forall j :: 0 <= j < |st.tickets| && j != k ==> st.tickets[j].mattermostPostId != Some(threadId)
  }

  /** A post the webhook relays: it has an id, it is not the support
      account's own, and its text is not blank. */
  predicate Relayable(p: Payload, support: SupportIdentity) {
    HasPostId(p) && !IsEcho(p, support) && Strip(p.text) != []
  }

  /** A reply posted in a ticket's thread by anyone but the support
      account is stored once on that ticket and sent once, to the ticket's
      owner. */
  lemma ReplyReachesOwner(st: Store, k: nat, u: User, threadId: string,
                          p: Payload, support: SupportIdentity, send: Remote, now: int)
    requires OnlyThread(st, k, u, threadId) && Relayable(p, support)
    ensures var r := HandleWebhook(st, p, PostFound(Some(threadId)), support, send, now);
            && r.store.messages == st.messages + [Message(|st.messages| + 1, st.tickets[k].id, FromSupport, p.text, now)]
            && r.sends == [Delivery(u.telegramId, ReplyText(Strip(p.text)))]
  {
    FindTicketByUniquePostId(st.tickets, k, threadId);
    FindUserByOwnId(st, u);
  }

  /** The same reply under the webhook as written is stored on the ticket
      but reaches nobody, and the request fails with a 500. */
  lemma ReplyLostAsWritten(st: Store, k: nat, u: User, threadId: string,
                           p: Payload, support: SupportIdentity, send: Remote, now: int)
    requires OnlyThread(st, k, u, threadId) && Relayable(p, support)
    ensures var fixed := HandleWebhook(st, p, PostFound(Some(threadId)), support, send, now);
            var asWritten := HandleWebhookAsWritten(st, p, PostFound(Some(threadId)), now);
            && |fixed.sends| == 1 && asWritten.sends == []
            && asWritten.store == fixed.store && asWritten.response == ServerError
  {
    ReplyReachesOwner(st, k, u, threadId, p, support, send, now);
    WebhookAsWrittenNeverRelays(st, p, PostFound(Some(threadId)), support, send, now);
  }

  /** Creating a pending ticket and activating it with `threadId` leaves one
      more ticket, the user's, carrying that thread id and no other; users
      and messages are untouched. */
  lemma PendingThenActivated(st: Store, u: User, title: string, description: string,
                             issueId: string, threadId: string, now: int)
    requires Valid(st) && u in st.users && |title| <= TITLE_MAX
    requires forall j :: 0 <= j < |st.tickets| ==> st.tickets[j].mattermostPostId != Some(threadId)
    ensures var created := CreatePendingTicket(st, u, title, description, now);
            && created.result.Success?
            && var id := created.result.value.id;
               var activated := ActivateTicket(created.store, id, Ok(threadId), Ok(issueId));
               && activated.result.Success?
               && id == |st.tickets| + 1
               && activated.store.messages == st.messages
               && activated.store.tickets[id - 1].id == id
               && OnlyThread(activated.store, id - 1, u, threadId)
  {
    assert UserExists(st, u.id) by {
      var i :| 0 <= i < |st.users| && st.users[i] == u;
    }
    var created := CreatePendingTicket(st, u, title, description, now);
    var st1 := created.store;
    assert u in st1.users;
    FindUserByOwnId(st1, u);
  }

  /** The relay round trip: a pending ticket is created for a registered
      user and activated with a thread id no other ticket carries; a reply
      posted in that thread by someone other than the support account then
      adds exactly one support message with the reply's text to that ticket
      and sends exactly one Telegram message, to the ticket's owner, with
      the stripped reply. */
  lemma RelayRoundTrip(st: Store, u: User, title: string, description: string,
                       issueId: string, threadId: string,
                       p: Payload, support: SupportIdentity, send: Remote, t0: int, t1: int)
    requires Valid(st) && u in st.users && |title| <= TITLE_MAX
    requires forall j :: 0 <= j < |st.tickets| ==> st.tickets[j].mattermostPostId != Some(threadId)
    requires Relayable(p, support)
    ensures var created := CreatePendingTicket(st, u, title, description, t0);
            && created.result.Success?
            && var id := created.result.value.id;
               var activated := ActivateTicket(created.store, id, Ok(threadId), Ok(issueId));
               && activated.result.Success?
               && var r := HandleWebhook(activated.store, p, PostFound(Some(threadId)), support, send, t1);
                  && r.store.messages == st.messages + [Message(|st.messages| + 1, id, FromSupport, p.text, t1)]
                  && r.sends == [Delivery(u.telegramId, ReplyText(Strip(p.text)))]
  {
    PendingThenActivated(st, u, title, description, issueId, threadId, t0);
    var created := CreatePendingTicket(st, u, title, description, t0);
    var id := created.result.value.id;
    var activated := ActivateTicket(created.store, id, Ok(threadId), Ok(issueId));
    var st2 := activated.store;
    assert OnlyThread(st2, id - 1, u, threadId) && st2.tickets[id - 1].id == id;
    assert st2.messages == st.messages;
    ReplyReachesOwner(st2, id - 1, u, threadId, p, support, send, t1);
  }
}

=== FILE: text.dfy ===
/** The pieces of Python's `str` behaviour the bot relies on: whitespace,
    `split()`, `strip()`, `' '.join`, `lower()`, `istitle()` and the decimal
    rendering of integers. Letter case is modelled for the Latin and the basic
    Cyrillic alphabets only. */
module Text {

  /** Python's `str.isspace` for one character: the characters `split()` and
      `strip()` with no argument treat as separators. */
  predicate IsSpace(c: char) {
    || c == ' '
    || ('\t' <= c <= '\r')
    || ('\U{1C}' <= c <= '\U{1F}')
    || c == '\U{85}' || c == '\U{A0}' || c == '\U{1680}'
    || ('\U{2000}' <= c <= '\U{200A}')
    || c == '\U{2028}' || c == '\U{2029}' || c == '\U{202F}' || c == '\U{205F}' || c == '\U{3000}'
  }

  predicate AllSpace(s: string) {
    forall i :: 0 <= i < |s| ==> IsSpace(s[i])
  }

  /** A maximal run of non-whitespace characters, as `split()` produces. */
  predicate IsWord(w: string) {
    |w| > 0 && forall i :: 0 <= i < |w| ==> !IsSpace(w[i])
  }

  /** Length of the longest prefix of `s` without whitespace. */
  function WordLength(s: string): (n: nat)
    ensures n <= |s|
    ensures forall i :: 0 <= i < n ==> !IsSpace(s[i])
    ensures n < |s| ==> IsSpace(s[n])
  {
    if |s| == 0 || IsSpace(s[0]) then 0 else 1 + WordLength(s[1..])
  }

  /** Python `s.split()`: the words of `s`, in order, with every run of
      whitespace (leading and trailing ones included) acting as one separator. */
  function Split(s: string): (ws: seq<string>)
    ensures forall i :: 0 <= i < |ws| ==> IsWord(ws[i])
    decreases |s|
  {
    if |s| == 0 then []
    else if IsSpace(s[0]) then Split(s[1..])
    else
      var n := WordLength(s);
      [s[..n]] + Split(s[n..])
  }

  lemma {:induction false} SplitSpacePrefix(sp: string, s: string)
    requires AllSpace(sp)
    ensures Split(sp + s) == Split(s)
    decreases |sp|
  {
    if |sp| == 0 {
      assert sp + s == s;
    } else {
      assert (sp + s)[1..] == sp[1..] + s;
      SplitSpacePrefix(sp[1..], s);
    }
  }

  lemma {:induction false} WordLengthOfWord(w: string, s: string)
    requires forall i :: 0 <= i < |w| ==> !IsSpace(w[i])
    requires |s| == 0 || IsSpace(s[0])
    ensures WordLength(w + s) == |w|
    decreases |w|
  {
    if |w| == 0 {
      assert w + s == s;
    } else {
      assert (w + s)[1..] == w[1..] + s;
      WordLengthOfWord(w[1..], s);
    }
  }

  lemma SplitWordPrefix(w: string, s: string)
    requires IsWord(w)
    requires |s| == 0 || IsSpace(s[0])
    ensures Split(w + s) == [w] + Split(s)
  {
    WordLengthOfWord(w, s);
    assert (w + s)[..|w|] == w;
    assert (w + s)[|w|..] == s;
  }

  lemma {:induction false} SplitSpaceSuffix(x: string, t: string)
    requires AllSpace(t)
    ensures Split(x + t) == Split(x)
    decreases |x|
  {
    if |x| == 0 {
      assert x + t == t + [];
      SplitSpacePrefix(t, []);
    } else if IsSpace(x[0]) {
      assert (x + t)[1..] == x[1..] + t;
      SplitSpaceSuffix(x[1..], t);
    } else {
      var n := WordLength(x);
      assert x + t == x[..n] + (x[n..] + t);
      WordLengthOfWord(x[..n], x[n..] + t);
      assert (x + t)[..n] == x[..n];
      assert (x + t)[n..] == x[n..] + t;
      SplitSpaceSuffix(x[n..], t);
    }
  }

  /** Every character of `s` from `lo` up to `hi` is whitespace. */
  predicate SpacesIn(s: string, lo: nat, hi: nat)
    requires lo <= hi <= |s|
  {
    forall i :: lo <= i < hi ==> IsSpace(s[i])
  }

  /** The first index at or after `i` that is not whitespace, or `|s|`:
      where the text starts once `s.lstrip()` has removed the run. */
  function SkipSpace(s: string, i: nat): (n: nat)
    requires i <= |s|
    ensures i <= n <= |s| && SpacesIn(s, i, n)
    ensures n == |s| || !IsSpace(s[n])
    decreases |s| - i
  {
    if i < |s| && IsSpace(s[i]) then SkipSpace(s, i + 1) else i
  }

  /** The index down to which the whitespace before `hi` reaches, but not
      below `lo`: where the text ends once `s.rstrip()` has removed the run. */
  function BackSpace(s: string, lo: nat, hi: nat): (n: nat)
    requires lo <= hi <= |s|
    ensures lo <= n <= hi && SpacesIn(s, n, hi)
    ensures n == lo || !IsSpace(s[n - 1])
    decreases hi
  {
    if lo < hi && IsSpace(s[hi - 1]) then BackSpace(s, lo, hi - 1) else hi
  }

  /** `r` is the part of `s` that starts at `k`, and everything of `s`
      before and after it is whitespace. */
  predicate OuterSpaceOnly(s: string, k: nat, r: string) {
    k + |r| <= |s| && r == s[k..k + |r|] && SpacesIn(s, 0, k) && SpacesIn(s, k + |r|, |s|)
  }

  /** `r` neither starts nor ends with whitespace. */
  predicate Trimmed(r: string) {
    |r| == 0 || (!IsSpace(r[0]) && !IsSpace(r[|r| - 1]))
  }

  /** Python `s.strip()`: the text between the leading and the trailing
      whitespace of `s`. Only whitespace is removed, only at the two ends,
      and the result has the same words as `s`. */
  function Strip(s: string): (r: string)
    ensures OuterSpaceOnly(s, SkipSpace(s, 0), r) && Trimmed(r)
    ensures Split(r) == Split(s)
  {
    var k := SkipSpace(s, 0);
    var e := BackSpace(s, k, |s|);
    StripShape(s, k, e);
    StripWords(s, k, e);
    s[k..e]
  }

  /** The slice between the two whitespace runs neither starts nor ends
      with whitespace. */
  lemma StripShape(s: string, k: nat, e: nat)
    requires k <= e <= |s| && SpacesIn(s, 0, k) && SpacesIn(s, e, |s|)
    requires k == |s| || !IsSpace(s[k])
    requires e == k || !IsSpace(s[e - 1])
    ensures OuterSpaceOnly(s, k, s[k..e]) && Trimmed(s[k..e])
  {
    var r := s[k..e];
    assert |r| == e - k && r == s[k..k + |r|];
    if |r| > 0 {
      assert r[0] == s[k] && r[|r| - 1] == s[e - 1];
    }
  }

  /** Removing whitespace runs at both ends keeps the words. */
  lemma StripWords(s: string, k: nat, e: nat)
    requires k <= e <= |s| && SpacesIn(s, 0, k) && SpacesIn(s, e, |s|)
    ensures Split(s[k..e]) == Split(s)
  {
    var t := s[k..];
    SplitDropSpace(s, k);
    assert SpacesIn(t, e - k, |t|) by {
      forall i | e - k <= i < |t| ensures IsSpace(t[i]) {
        assert t[i] == s[k + i];
      }
    }
    assert t[..e - k] == s[k..e];
    SplitTakeSpace(t, e - k);
  }

  /** Dropping leading whitespace keeps the words. */
  lemma SplitDropSpace(s: string, k: nat)
    requires k <= |s| && SpacesIn(s, 0, k)
    ensures Split(s[k..]) == Split(s)
  {
    assert AllSpace(s[..k]);
    assert s == s[..k] + s[k..];
    SplitSpacePrefix(s[..k], s[k..]);
  }

  /** Dropping trailing whitespace keeps the words. */
  lemma SplitTakeSpace(t: string, n: nat)
    requires n <= |t| && SpacesIn(t, n, |t|)
    ensures Split(t[..n]) == Split(t)
  {
    assert AllSpace(t[n..]) by {
      forall i | 0 <= i < |t[n..]| ensures IsSpace(t[n..][i]) {
        assert t[n..][i] == t[n + i];
      }
    }
    assert t == t[..n] + t[n..];
    SplitSpaceSuffix(t[..n], t[n..]);
  }

  /** Python `' '.join(ws)`. */
  function JoinSpace(ws: seq<string>): string {
    if |ws| == 0 then ""
    else if |ws| == 1 then ws[0]
    else ws[0] + " " + JoinSpace(ws[1..])
  }

  /** Splitting words joined by single spaces gives the words back. */
  lemma {:induction false} SplitJoinSpace(ws: seq<string>)
    requires forall i :: 0 <= i < |ws| ==> IsWord(ws[i])
    ensures Split(JoinSpace(ws)) == ws
  {
    if |ws| == 1 {
      assert ws[0] + "" == ws[0];
      SplitWordPrefix(ws[0], "");
    } else if |ws| > 1 {
      var rest := JoinSpace(ws[1..]);
      assert JoinSpace(ws) == ws[0] + (" " + rest);
      SplitWordPrefix(ws[0], " " + rest);
      SplitSpacePrefix(" ", rest);
      SplitJoinSpace(ws[1..]);
      assert ws == [ws[0]] + ws[1..];
    }
  }

  /** The words `ws` with the whitespace `gaps[i]` written after `ws[i]`. */
  function Spaced(ws: seq<string>, gaps: seq<string>): string
    requires |gaps| == |ws|
  {
    if |ws| == 0 then "" else ws[0] + gaps[0] + Spaced(ws[1..], gaps[1..])
  }

  /** Whitespace is well placed between words: every gap is whitespace, and
      every gap but the trailing one is non-empty. */
  predicate WellSpaced(ws: seq<string>, gaps: seq<string>) {
    && |gaps| == |ws|
    && (forall i :: 0 <= i < |ws| ==> IsWord(ws[i]) && AllSpace(gaps[i]))
    && (forall i :: 0 <= i < |ws| - 1 ==> |gaps[i]| > 0)
  }

  lemma {:induction false} SplitSpacedWords(ws: seq<string>, gaps: seq<string>)
    requires WellSpaced(ws, gaps)
    ensures Split(Spaced(ws, gaps)) == ws
  {
    if |ws| > 0 {
      var rest := Spaced(ws[1..], gaps[1..]);
      assert Spaced(ws, gaps) == ws[0] + (gaps[0] + rest);
      assert |rest| == 0 ==> gaps[0] + rest == gaps[0];
      SplitWordPrefix(ws[0], gaps[0] + rest);
      SplitSpacePrefix(gaps[0], rest);
      assert WellSpaced(ws[1..], gaps[1..]);
      SplitSpacedWords(ws[1..], gaps[1..]);
      assert ws == [ws[0]] + ws[1..];
    }
  }

  /** However much whitespace surrounds and separates the words, `split()`
      finds exactly those words. */
  lemma SplitSpaced(lead: string, ws: seq<string>, gaps: seq<string>)
    requires AllSpace(lead) && WellSpaced(ws, gaps)
    ensures Split(lead + Spaced(ws, gaps)) == ws
  {
    SplitSpacePrefix(lead, Spaced(ws, gaps));
    SplitSpacedWords(ws, gaps);
  }

  predicate IsUpperLetter(c: char) {
    ('A' <= c <= 'Z') || ('\U{400}' <= c <= '\U{42F}')
  }

  predicate IsLowerLetter(c: char) {
    ('a' <= c <= 'z') || ('\U{430}' <= c <= '\U{45F}')
  }

  /** Python `c.lower()` for one character. */
  function LowerChar(c: char): char {
    if ('A' <= c <= 'Z') || ('\U{410}' <= c <= '\U{42F}') then (c as int + 32) as char
    else if '\U{400}' <= c <= '\U{40F}' then (c as int + 80) as char
    else c
  }

  /** Python `c.upper()` for one character, read from the lower-case side:
      a-z and а-я move down by 32, ѐ-џ by 80. */
  function UpperChar(c: char): char {
    if ('a' <= c <= 'z') || ('\U{430}' <= c <= '\U{44F}') then (c as int - 32) as char
    else if '\U{450}' <= c <= '\U{45F}' then (c as int - 80) as char
    else c
  }

  /** Python `s.lower()`: every upper-case letter is replaced by the
      lower-case letter whose upper case it is, and every other character is
      kept. */
  function Lower(s: string): (r: string)
    ensures |r| == |s|
    ensures forall i :: 0 <= i < |s| ==> !IsUpperLetter(r[i])
    ensures forall i :: 0 <= i < |s| && IsUpperLetter(s[i]) ==> IsLowerLetter(r[i]) && UpperChar(r[i]) == s[i]
    ensures forall i :: 0 <= i < |s| && !IsUpperLetter(s[i]) ==> r[i] == s[i]
  {
    seq(|s|, i requires 0 <= i < |s| => LowerChar(s[i]))
  }

  /** Python `w.istitle()`: upper-case letters only follow uncased characters,
      lower-case letters only follow cased ones, and there is a cased letter. */
  predicate IsTitle(w: string)
    ensures IsTitle(w) ==> exists i :: 0 <= i < |w| && IsUpperLetter(w[i])
  {
    TitleScanHasUpper(w, false, false);
    TitleScan(w, false, false)
  }

  /** A successful scan that started with no letter pending has met an
      upper-case letter: a lower-case one is only accepted after a letter. */
  lemma {:induction false} TitleScanHasUpper(w: string, previousCased: bool, sawCased: bool)
    requires previousCased ==> sawCased
    ensures TitleScan(w, previousCased, sawCased) && !sawCased ==> exists i :: 0 <= i < |w| && IsUpperLetter(w[i])
    decreases |w|
  {
    if |w| > 0 && !sawCased && TitleScan(w, previousCased, sawCased) && !IsUpperLetter(w[0]) {
      TitleScanHasUpper(w[1..], false, sawCased);
      var i :| 0 <= i < |w[1..]| && IsUpperLetter(w[1..][i]);
      assert IsUpperLetter(w[i + 1]);
    }
  }

  /** The scan behind `istitle`, given whether the previous character was a
      letter and whether any letter has been seen. */
  predicate TitleScan(w: string, previousCased: bool, sawCased: bool)
    decreases |w|
  {
    if |w| == 0 then sawCased
    else if IsUpperLetter(w[0]) then !previousCased && TitleScan(w[1..], true, true)
    else if IsLowerLetter(w[0]) then previousCased && TitleScan(w[1..], true, true)
    else TitleScan(w[1..], false, sawCased)
  }

  predicate AllLetters(w: string) {
    forall i :: 0 <= i < |w| ==> IsUpperLetter(w[i]) || IsLowerLetter(w[i])
  }

  lemma {:induction false} TitleScanAfterLetter(t: string)
    requires AllLetters(t)
    ensures TitleScan(t, true, true) <==> forall i :: 0 <= i < |t| ==> IsLowerLetter(t[i])
    decreases |t|
  {
    if |t| > 0 {
      assert AllLetters(t[1..]);
      TitleScanAfterLetter(t[1..]);
      if IsLowerLetter(t[0]) {
        assert forall i :: 1 <= i < |t| ==> t[i] == t[1..][i - 1];
      }
    }
  }

  /** For a word made of letters only, `istitle` means: a capital followed by
      lower-case letters. */
  lemma TitleWordShape(w: string)
    requires |w| > 0 && AllLetters(w)
    ensures IsTitle(w) <==> IsUpperLetter(w[0]) && forall i :: 1 <= i < |w| ==> IsLowerLetter(w[i])
  {
    assert AllLetters(w[1..]);
    TitleScanAfterLetter(w[1..]);
    assert forall i :: 1 <= i < |w| ==> w[i] == w[1..][i - 1];
  }

  predicate IsDigit(c: char) {
    '0' <= c <= '9'
  }

  predicate AllDigits(s: string) {
    forall i :: 0 <= i < |s| ==> IsDigit(s[i])
  }

  function Digit(d: nat): char
    requires d < 10
  {
    ('0' as int + d) as char
  }

  /** Python `str(n)` (and `f"{n}"`) for a non-negative integer. */
  function NatToString(n: nat): (s: string)
    ensures |s| >= 1 && AllDigits(s)
    ensures s[0] == '0' ==> n == 0
    decreases n
  {
    if n < 10 then [Digit(n)] else NatToString(n / 10) + [Digit(n % 10)]
  }

  /** The number a string of decimal digits denotes. */
  function DigitsValue(s: string): nat
    requires AllDigits(s)
    decreases |s|
  {
    if |s| == 0 then 0 else DigitsValue(s[..|s| - 1]) * 10 + (s[|s| - 1] as int - '0' as int)
  }

  /** Reading back the decimal rendering gives the number. */
  lemma {:induction false} DigitsValueOfNatToString(n: nat)
    ensures DigitsValue(NatToString(n)) == n
    decreases n
  {
    if n >= 10 {
      var s := NatToString(n);
      assert s[..|s| - 1] == NatToString(n / 10);
      DigitsValueOfNatToString(n / 10);
    }
  }

  predicate StartsWith(s: string, prefix: string) {
    |prefix| <= |s| && s[..|prefix|] == prefix
  }

  predicate OccursAt(s: string, part: string, k: int) {
    0 <= k <= |s| - |part| && s[k..k + |part|] == part
  }

  ghost predicate Contains(s: string, part: string) {
    exists k :: OccursAt(s, part, k)
  }

  predicate EndsWith(s: string, suffix: string) {
    |suffix| <= |s| && s[|s| - |suffix|..] == suffix
  }
}

=== FILE: text_utils.dfy ===
/** Full-name validation and text truncation. */
module TextUtils {
  import opened Text

  /** validate_full_name: the whitespace is normalised to single spaces, then
      the name must have at least two parts, each in title case. */
  function ValidateFullName(fullName: string): (ok: bool)
    ensures ok <==> |Split(fullName)| >= 2 && forall i :: 0 <= i < |Split(fullName)| ==> IsTitle(Split(fullName)[i])
  {
    var normalized := JoinSpace(Split(fullName));
    var parts := Split(normalized);
    SplitJoinSpace(Split(fullName));
    |parts| >= 2 && forall p :: p in parts ==> IsTitle(p)
  }

  /** Adding, removing or collapsing whitespace around and between the parts
      of a name does not change the verdict. */
  lemma ValidateFullNameIgnoresSpacing(lead: string, parts: seq<string>, gaps: seq<string>)
    requires AllSpace(lead) && WellSpaced(parts, gaps)
    ensures ValidateFullName(lead + Spaced(parts, gaps)) == ValidateFullName(JoinSpace(parts))
  {
    SplitSpaced(lead, parts, gaps);
    SplitJoinSpace(parts);
  }

  function Min(a: int, b: int): int { if a <= b then a else b }
  function Max(a: int, b: int): int { if a >= b then a else b }

  /** Python `s[:k]` for any integer `k`: a negative `k` counts from the end,
      and an out-of-range bound is clamped. */
  function PrefixTo(s: string, k: int): (r: string)
    ensures |r| == if k >= 0 then Min(k, |s|) else Max(0, |s| + k)
    ensures r == s[..|r|]
  {
    if k >= 0 then (if k <= |s| then s[..k] else s)
    else if |s| + k >= 0 then s[..|s| + k]
    else []
  }

  const ELLIPSIS: string := "..."

  /** truncate_text: text that fits is returned as it is; longer text keeps
      its first maxLength - 3 characters and gets "...". Below a maxLength of
      3 the slice bound is negative and the result is longer than maxLength. */
  function TruncateText(text: string, maxLength: int): (r: string)
    ensures |text| <= maxLength ==> r == text
    ensures |text| > maxLength >= 3 ==> r == text[..maxLength - 3] + ELLIPSIS && |r| == maxLength
    ensures maxLength >= 3 ==> |r| <= maxLength
    ensures |text| > maxLength && maxLength < 3 ==> |r| > maxLength && EndsWith(r, ELLIPSIS)
  {
    if |text| <= maxLength then text else PrefixTo(text, maxLength - 3) + ELLIPSIS
  }

  /** Truncating twice with the same bound (at least 3) is truncating once. */
  lemma TruncateTextIdempotent(text: string, maxLength: int)
    requires maxLength >= 3
    ensures TruncateText(TruncateText(text, maxLength), maxLength) == TruncateText(text, maxLength)
  {
  }
}

=== FILE: ticket_handlers.dfy ===
/** The ticket-creation steps (title, description, confirmation) and the
    routing of free text to a ticket. */
module TicketHandlers {
  import opened Common
  import opened Text
  import opened Models
  import opened TicketService
  import opened Conversation

  const YES: string := "да"
  const NO: string := "нет"

  /** Python truthiness of an optional string: present and non-empty. */
  predicate Truthy(s: Option<string>) {
    s.Some? && s.value != ""
  }

  /** process_title: a stripped title over 100 characters is refused with
      nothing changed; an accepted one is kept in the session data (nothing
      is stored yet) and the description is asked for; a sender without a
      user row has the session cleared instead. */
  function ProcessTitle(session: Session, store: Store, from: From, text: string): (t: Turn)
    ensures t.store == store && t.calls == []
    ensures |Strip(text)| > TITLE_MAX ==> t.session == session && t.reply == TitleTooLong
    ensures |Strip(text)| <= TITLE_MAX && !TelegramIdTaken(store, from.telegramId) ==>
      t.session == Cleared && t.reply == AskRegistration
    ensures |Strip(text)| <= TITLE_MAX && TelegramIdTaken(store, from.telegramId) ==>
      && t.session.state == WaitingDescription && t.reply == AskDescription
      && t.session.data == session.data.(title := Some(Strip(text)))
    ensures t.session.data.title.Some? && t.session.data != session.data ==> |t.session.data.title.value| <= TITLE_MAX
  {
    var title := Strip(text);
    if |title| > TITLE_MAX then Turn(session, store, TitleTooLong, [])
    else
      match FindUserByTelegramId(store.users, from.telegramId)
      case None => Turn(Cleared, store, AskRegistration, [])
      case Some(_) => Turn(Session(WaitingDescription, session.data.(title := Some(title))), store, AskDescription, [])
  }

  /** process_description: the text, as sent, becomes the initial message,
      and the confirmation is asked for; nothing is stored. */
  function ProcessDescription(session: Session, store: Store, text: string): (t: Turn)
    ensures t.store == store && t.calls == [] && t.reply == AskConfirmation
    ensures t.session.state == WaitingConfirmation
    ensures t.session.data.initialMessage == Some(text)
    ensures t.session.data.title == session.data.title && t.session.data.selectedTicketId == session.data.selectedTicketId
  {
    Turn(Session(WaitingConfirmation, session.data.(initialMessage := Some(text))), store, AskConfirmation, [])
  }

  /** The answer is compared in lower case, so "Да" and "НЕТ" are
      recognised, while an answer with surrounding spaces is not. */
  lemma ConfirmationIgnoresCase()
    ensures Lower("Да") == YES && Lower("НЕТ") == NO
    ensures Lower(" да") != YES
  {
    assert Lower("Да")[0] == LowerChar('\U{414}');
    assert Lower("НЕТ")[0] == LowerChar('\U{41D}');
    assert Lower("НЕТ")[1] == LowerChar('\U{415}');
    assert Lower("НЕТ")[2] == LowerChar('\U{422}');
    assert |Lower(" да")| != |YES|;
  }

  /** process_confirmation. An answer whose lower case is neither "да" nor
      "нет" is asked again with nothing changed. Every other answer ends with
      the session cleared: "нет", or "да" with the title or the initial
      message missing or empty, creates nothing; "да" otherwise creates the
      ticket (remote calls first, then the row), and the session is cleared
      whether that succeeds or raises. */
  function ProcessConfirmation(session: Session, store: Store, from: From, text: string, env: Env): (t: Turn)
    ensures Lower(text) != YES && Lower(text) != NO ==> t == Turn(session, store, AskYesNo, [])
    ensures Lower(text) == YES || Lower(text) == NO ==> t.session == Cleared
    ensures Lower(text) == NO ==> t.store == store && t.calls == [] && t.reply == CreationCanceled
    ensures Lower(text) == YES && !(Truthy(session.data.title) && Truthy(session.data.initialMessage)) ==>
      t.store == store && t.calls == [] && t.reply == CreationRestart
    ensures Lower(text) == YES && Truthy(session.data.title) && Truthy(session.data.initialMessage) ==>
      match FindUserByTelegramId(store.users, from.telegramId)
      case None => t.store == store && t.calls == [] && t.reply == AskRegistration
      case Some(u) =>
        var e := CreateTicket(store, u, session.data.title.value, session.data.initialMessage.value,
                              env.plane, env.mattermost, env.now);
        && t.store == e.store && t.calls == e.calls
        && (t.reply == TicketCreated <==> e.result.Success?)
        && (t.reply != TicketCreated ==> t.reply == TicketCreationFailed)
    ensures Valid(store) ==> Valid(t.store)
    ensures RemoteIdsConsistent(store) ==> RemoteIdsConsistent(t.store)
    ensures Grows(store, t.store)
  {
    var answer := Lower(text);
    if answer != YES && answer != NO then Turn(session, store, AskYesNo, [])
    else if answer == NO then Turn(Cleared, store, CreationCanceled, [])
    else if !Truthy(session.data.initialMessage) || !Truthy(session.data.title) then
      Turn(Cleared, store, CreationRestart, [])
    else
      match FindUserByTelegramId(store.users, from.telegramId)
      case None => Turn(Cleared, store, AskRegistration, [])
      case Some(u) =>
        var e := CreateTicket(store, u, session.data.title.value, session.data.initialMessage.value,
                              env.plane, env.mattermost, env.now);
        Turn(Cleared, e.store, if e.result.Success? then TicketCreated else TicketCreationFailed, e.calls)
  }

  /** Adds the user's text to `target` through the corrected
      add_message_to_ticket; when a push raises, the exception escapes the
      handler and nothing is stored. */
  function Deliver(session: Session, store: Store, target: Ticket, text: string, env: Env, answer: Reply): (t: Turn)
    requires target in store.tickets
    ensures var e := AddMessageToTicket(store, target, text, FromUser, env.plane, env.mattermost, env.now);
            && t.session == session && t.store == e.store && t.calls == e.calls
            && t.reply == (if e.result.Success? then answer else NoReply)
    ensures Valid(store) ==> Valid(t.store)
    ensures RemoteIdsConsistent(store) ==> RemoteIdsConsistent(t.store)
    ensures Grows(store, t.store)
  {
    var e := AddMessageToTicket(store, target, text, FromUser, env.plane, env.mattermost, env.now);
    Turn(session, e.store, if e.result.Success? then answer else NoReply, e.calls)
  }

  /** The ticket the session has selected, if it exists: none when no id is
      selected, when the id is 0 (Python's only falsy integer), or when no
      stored ticket has it. */
  function SelectedTicket(session: Session, store: Store): (r: Option<Ticket>)
    ensures r.Some? ==> r.value in store.tickets && session.data.selectedTicketId == Some(r.value.id)
    ensures r.None? <==>
      || session.data.selectedTicketId.None? || session.data.selectedTicketId.value == 0
      || forall i :: 0 <= i < |store.tickets| ==> store.tickets[i].id != session.data.selectedTicketId.value
  {
    match session.data.selectedTicketId
    case Some(id) =>
      if id == 0 then None
      else if id < 0 then None  // keys are natural numbers, so the lookup finds nothing
      else FindTicketById(store.tickets, id)
    case None => None
  }

  /** The message reached `target` through add_message_to_ticket, with the
      session left as it was, and `answer` was sent exactly when the add
      succeeded: a failed add raises before the answer. */
  predicate RoutedTo(t: Turn, session: Session, store: Store, target: Ticket, text: string, env: Env, answer: Reply)
    requires target in store.tickets
  {
    var e := AddMessageToTicket(store, target, text, FromUser, env.plane, env.mattermost, env.now);
    && t.session == session && t.store == e.store && t.calls == e.calls
    && t.reply == (if e.result.Success? then answer else NoReply)
  }

  /** process_message, corrected: for a sender without a user row nothing
      changes. Otherwise the text goes to the selected ticket if it exists and
      is not closed, else to the user's newest ticket if that is not closed;
      else no message is added and ticket creation starts at the title step. */
  function ProcessMessage(session: Session, store: Store, from: From, text: string, env: Env): (t: Turn)
    requires Valid(store)
    ensures FindUserByTelegramId(store.users, from.telegramId).None? ==> t == Turn(session, store, AskRegistration, [])
    ensures FindUserByTelegramId(store.users, from.telegramId).Some? ==>
      var selected := SelectedTicket(session, store);
      var last := GetLastTicket(store, FindUserByTelegramId(store.users, from.telegramId).value.id);
      if selected.Some? && selected.value.status != CLOSED then
        RoutedTo(t, session, store, selected.value, text, env, AddedToSelected)
      else if last.Some? && last.value.status != CLOSED then
        RoutedTo(t, session, store, last.value, text, env, AddedToCurrent)
      else
        t == Turn(session.(state := WaitingTitle), store, AskNewTicketTitle, [])
    ensures Valid(t.store)
    ensures RemoteIdsConsistent(store) ==> RemoteIdsConsistent(t.store)
    ensures Grows(store, t.store)
  {
    match FindUserByTelegramId(store.users, from.telegramId)
    case None => Turn(session, store, AskRegistration, [])
    case Some(u) =>
      var selected := SelectedTicket(session, store);
      if selected.Some? && selected.value.status != CLOSED then
        Deliver(session, store, selected.value, text, env, AddedToSelected)
      else
        var last := GetLastTicket(store, u.id);
        if last.Some? && last.value.status != CLOSED then
          Deliver(session, store, last.value, text, env, AddedToCurrent)
        else
          Turn(session.(state := WaitingTitle), store, AskNewTicketTitle, [])
  }

  /** Adds the user's text to `target` through add_message_to_ticket as
      written, whose first push raises. */
  function DeliverAsWritten(session: Session, store: Store, target: Ticket, text: string, env: Env, answer: Reply): (t: Turn)
    requires target in store.tickets
    ensures t == Turn(session, store, NoReply, [])
  {
    var e := AddMessageToTicketAsWritten(store, target, text, FromUser, env.now);
    Turn(session, e.store, if e.result.Success? then answer else NoReply, e.calls)
  }

  /** process_message as written: the routing is the same, but a message
      that reaches a ticket makes add_message_to_ticket raise before any
      call, so it is not stored, not relayed and not answered. Only the
      unregistered sender and the start of ticket creation get an answer. */
  function ProcessMessageAsWritten(session: Session, store: Store, from: From, text: string, env: Env): (t: Turn)
    requires Valid(store)
    ensures t.store == store && t.calls == []
    ensures FindUserByTelegramId(store.users, from.telegramId).None? ==> t == Turn(session, store, AskRegistration, [])
    ensures FindUserByTelegramId(store.users, from.telegramId).Some? ==>
      var selected := SelectedTicket(session, store);
      var last := GetLastTicket(store, FindUserByTelegramId(store.users, from.telegramId).value.id);
      if (selected.Some? && selected.value.status != CLOSED) || (last.Some? && last.value.status != CLOSED) then
        t == Turn(session, store, NoReply, [])
      else
        t == Turn(session.(state := WaitingTitle), store, AskNewTicketTitle, [])
  {
    match FindUserByTelegramId(store.users, from.telegramId)
    case None => Turn(session, store, AskRegistration, [])
    case Some(u) =>
      var selected := SelectedTicket(session, store);
      if selected.Some? && selected.value.status != CLOSED then
        DeliverAsWritten(session, store, selected.value, text, env, AddedToSelected)
      else
        var last := GetLastTicket(store, u.id);
        if last.Some? && last.value.status != CLOSED then
          DeliverAsWritten(session, store, last.value, text, env, AddedToCurrent)
        else
          Turn(session.(state := WaitingTitle), store, AskNewTicketTitle, [])
  }

  /** A user whose only ticket is active. */
  function OpenTicketSample(telegramId: int): Store {
    Store([User(1, telegramId, None, "Анна Смирнова", "", "", 0, true)],
          [Ticket(1, 1, "Принтер", "", Some("i1"), Some("p1"), ACTIVE, 0, None)],
          [])
  }

  /** A registered user writes to their open ticket: when both pushes
      succeed the corrected routing stores the message and answers, while
      the code as written stores nothing and stays silent. */
  lemma RoutingAsWrittenLosesMessage(session: Session, from: From, text: string, env: Env)
    requires session.data.selectedTicketId.None? && env.plane.Ok? && env.mattermost.Ok?
    ensures Valid(OpenTicketSample(from.telegramId))
    ensures var fixed := ProcessMessage(session, OpenTicketSample(from.telegramId), from, text, env);
            fixed.reply == AddedToCurrent && |fixed.store.messages| == 1 && |fixed.calls| == 2
    ensures ProcessMessageAsWritten(session, OpenTicketSample(from.telegramId), from, text, env)
            == Turn(session, OpenTicketSample(from.telegramId), NoReply, [])
  {
    var store := OpenTicketSample(from.telegramId);
    assert Valid(store);
    assert FindUserByTelegramId(store.users, from.telegramId) == Some(store.users[0]);
    assert GetLastTicket(store, 1) == Some(store.tickets[0]);
  }

  /** Two leading entries of a newest-first list are different tickets. */
  lemma HeadsDiffer(ts: seq<Ticket>)
    requires IdsDecreasing(ts) && |ts| >= 2
    ensures ts[0] != ts[1]
  {
    assert ts[0].id > ts[1].id;
  }

  /** A user with an older ticket still active and a newer one closed. */
  function RoutingSample(telegramId: int): Store {
    Store([User(1, telegramId, None, "Анна Смирнова", "", "", 0, true)],
          [Ticket(1, 1, "Принтер", "", Some("i1"), Some("p1"), ACTIVE, 0, None),
           Ticket(2, 1, "Сканер", "", Some("i2"), Some("p2"), CLOSED, 1, Some(2))],
          [])
  }

  /** In the sample the older ticket is the only one on the active list. */
  lemma RoutingSampleActiveList(telegramId: int)
    ensures Valid(RoutingSample(telegramId))
    ensures GetActiveTickets(RoutingSample(telegramId), 1) == [RoutingSample(telegramId).tickets[0]]
  {
    var store := RoutingSample(telegramId);
    var older := store.tickets[0];
    assert Valid(store);
    var active := GetActiveTickets(store, 1);
    assert older in active;
    forall i | 0 <= i < |active|
      ensures active[i] == older
    {
      assert active[i] in active;
    }
    if |active| >= 2 {
      HeadsDiffer(active);
    }
  }

  /** Routing looks at the newest ticket only: when it is closed, an older
      ticket that is still open (and on the active list) does not receive the
      message; ticket creation starts instead. */
  lemma RoutingSkipsOlderOpenTicket(session: Session, from: From, text: string, env: Env)
    requires session.data.selectedTicketId.None?
    ensures Valid(RoutingSample(from.telegramId))
    ensures ProcessMessage(session, RoutingSample(from.telegramId), from, text, env)
            == Turn(session.(state := WaitingTitle), RoutingSample(from.telegramId), AskNewTicketTitle, [])
  {
    var store := RoutingSample(from.telegramId);
    RoutingSampleActiveList(from.telegramId);
    assert GetLastTicket(store, 1) == Some(store.tickets[1]);
  }
}

=== FILE: ticket_service.dfy ===
/** The ticket lifecycle: lookups, creation (directly as "new", or as
    "pending" and activated later), cancellation, closing, and appending a
    message with its relay to the two remote systems. Every remote call's
    outcome is an input; every operation reports the calls it made. */
module TicketService {
  import opened Common
  import opened Text
  import opened Models
  import opened Keyboards

  /** What an operation did: the store after it, its result, and the remote
      calls it made, in order. */
  datatype Effect<T> = Effect(store: Store, result: Result<T>, calls: seq<Call>)

  function FindUserByTelegramId(users: seq<User>, telegramId: int): (r: Option<User>)
    ensures r.Some? ==> r.value in users && r.value.telegramId == telegramId
    ensures r.None? <==> forall i :: 0 <= i < |users| ==> users[i].telegramId != telegramId
  {
    if |users| == 0 then None
    else if users[0].telegramId == telegramId then Some(users[0])
    else FindUserByTelegramId(users[1..], telegramId)
  }

  function FindUserById(users: seq<User>, id: nat): (r: Option<User>)
    ensures r.Some? ==> r.value in users && r.value.id == id
    ensures r.None? <==> forall i :: 0 <= i < |users| ==> users[i].id != id
  {
    if |users| == 0 then None
    else if users[0].id == id then Some(users[0])
    else FindUserById(users[1..], id)
  }

  function FindTicketById(tickets: seq<Ticket>, id: nat): (r: Option<Ticket>)
    ensures r.Some? ==> r.value in tickets && r.value.id == id
    ensures r.None? <==> forall i :: 0 <= i < |tickets| ==> tickets[i].id != id
  {
    if |tickets| == 0 then None
    else if tickets[0].id == id then Some(tickets[0])
    else FindTicketById(tickets[1..], id)
  }

  /** The ticket whose Mattermost thread root is `postId` (the first one in
      the table when several share it). */
  function FindTicketByPostId(tickets: seq<Ticket>, postId: string): (r: Option<Ticket>)
    ensures r.Some? ==> r.value in tickets && r.value.mattermostPostId == Some(postId)
    ensures r.None? <==> forall i :: 0 <= i < |tickets| ==> tickets[i].mattermostPostId != Some(postId)
  {
    if |tickets| == 0 then None
    else if tickets[0].mattermostPostId == Some(postId) then Some(tickets[0])
    else FindTicketByPostId(tickets[1..], postId)
  }

  predicate IdsIncreasing(ts: seq<Ticket>) {
    forall i, j :: 0 <= i < j < |ts| ==> ts[i].id < ts[j].id
  }

  /** Newest-created first: keys are handed out in creation order. */
  predicate IdsDecreasing(ts: seq<Ticket>) {
    forall i, j :: 0 <= i < j < |ts| ==> ts[i].id > ts[j].id
  }

  predicate IsOpenTicketOf(t: Ticket, userId: nat) {
    t.userId == userId && t.status != CLOSED
  }

  function OpenTicketsNewestFirst(ts: seq<Ticket>, userId: nat): (r: seq<Ticket>)
    requires IdsIncreasing(ts)
    ensures forall t :: t in r <==> t in ts && IsOpenTicketOf(t, userId)
    ensures IdsDecreasing(r)
  {
    if |ts| == 0 then []
    else
      var rest := OpenTicketsNewestFirst(ts[1..], userId);
      assert forall i :: 0 <= i < |rest| ==> rest[i].id > ts[0].id by {
        forall i | 0 <= i < |rest|
          ensures rest[i].id > ts[0].id
        {
          assert rest[i] in ts[1..];
          var j :| 0 <= j < |ts[1..]| && ts[1..][j] == rest[i];
          assert ts[j + 1] == rest[i];
        }
      }
      if IsOpenTicketOf(ts[0], userId) then rest + [ts[0]] else rest
  }

  lemma ValidIdsIncreasing(st: Store)
    requires Valid(st)
    ensures IdsIncreasing(st.tickets)
  {
  }

  /** get_active_tickets: exactly the user's tickets that are not closed,
      newest first. */
  function GetActiveTickets(st: Store, userId: nat): (r: seq<Ticket>)
    requires Valid(st)
    ensures forall t :: t in r <==> t in st.tickets && IsOpenTicketOf(t, userId)
    ensures IdsDecreasing(r)
  {
    ValidIdsIncreasing(st);
    OpenTicketsNewestFirst(st.tickets, userId)
  }

  function LastTicketOf(ts: seq<Ticket>, userId: nat): (r: Option<Ticket>)
    requires IdsIncreasing(ts)
    ensures r.Some? ==> r.value in ts && r.value.userId == userId
    ensures r.Some? ==> forall t :: t in ts && t.userId == userId ==> t.id <= r.value.id
    ensures r.None? <==> forall t :: t in ts ==> t.userId != userId
  {
    if |ts| == 0 then None
    else if ts[|ts| - 1].userId == userId then Some(ts[|ts| - 1])
    else
      assert forall t :: t in ts ==> t == ts[|ts| - 1] || t in ts[..|ts| - 1];
      LastTicketOf(ts[..|ts| - 1], userId)
  }

  /** get_last_ticket: the user's newest ticket, whatever its status. */
  function GetLastTicket(st: Store, userId: nat): (r: Option<Ticket>)
    requires Valid(st)
    ensures r.Some? ==> r.value in st.tickets && r.value.userId == userId
    ensures r.Some? ==> forall t :: t in st.tickets && t.userId == userId ==> t.id <= r.value.id
    ensures r.None? <==> forall t :: t in st.tickets ==> t.userId != userId
  {
    ValidIdsIncreasing(st);
    LastTicketOf(st.tickets, userId)
  }

  /** When the newest ticket is not closed, it heads the active list. */
  lemma LastOpenTicketHeadsActiveList(st: Store, userId: nat)
    requires Valid(st)
    requires GetLastTicket(st, userId).Some? && GetLastTicket(st, userId).value.status != CLOSED
    ensures |GetActiveTickets(st, userId)| > 0 && GetActiveTickets(st, userId)[0] == GetLastTicket(st, userId).value
  {
    var last := GetLastTicket(st, userId).value;
    var active := GetActiveTickets(st, userId);
    assert last in active;
    var k :| 0 <= k < |active| && active[k] == last;
    assert active[0] in active;
    assert active[0].id <= last.id;
    assert forall j :: 0 < j < |active| ==> active[j].id < active[0].id;
  }

  /** Tickets carry remote ids exactly as far as they have been mirrored: a
      pending ticket has none, a new or active one has both. */
  predicate RemoteIdsConsistent(st: Store) {
    forall i :: 0 <= i < |st.tickets| ==>
      && (st.tickets[i].status == PENDING ==>
            st.tickets[i].planeTicketId.None? && st.tickets[i].mattermostPostId.None?)
      && (st.tickets[i].status == NEW || st.tickets[i].status == ACTIVE ==>
            st.tickets[i].planeTicketId.Some? && st.tickets[i].mattermostPostId.Some?)
  }

  /** create_ticket: the issue is created in Plane, then the thread in
      Mattermost, both titled "<full name>: <title>"; the ticket is stored
      with status "new" and both remote ids only after both calls return. The
      description goes to the remote systems but is not passed to the row;
      this is the corrected creation, where the row's description is the
      empty string its migration declares as server default. */
  function CreateTicket(st: Store, user: User, title: string, description: string,
                        plane: Remote, mattermost: Remote, now: int): (r: Effect<Ticket>)
    ensures |r.calls| >= 1 && r.calls[0] == CreateIssue(user.fullName + ": " + title, description)
    ensures plane.Fail? ==> |r.calls| == 1
    ensures plane.Ok? ==> |r.calls| == 2 && r.calls[1] == CreateThread(user.fullName + ": " + title, description)
    ensures r.result.Success? <==> plane.Ok? && mattermost.Ok? && |title| <= TITLE_MAX && UserExists(st, user.id)
    ensures r.result.Failure? ==> r.store == st
    ensures r.result.Success? ==>
      && r.store.users == st.users && r.store.messages == st.messages
      && r.store.tickets == st.tickets + [r.result.value]
      && r.result.value == Ticket(|st.tickets| + 1, user.id, title, "", Some(plane.id), Some(mattermost.id), NEW, now, None)
    ensures Valid(st) ==> Valid(r.store)
    ensures RemoteIdsConsistent(st) ==> RemoteIdsConsistent(r.store)
  {
    var fullTitle := user.fullName + ": " + title;
    match plane
    case Fail => Effect(st, Failure(RemoteFailed(Plane)), [CreateIssue(fullTitle, description)])
    case Ok(issueId) =>
      var calls := [CreateIssue(fullTitle, description), CreateThread(fullTitle, description)];
      match mattermost
      case Fail => Effect(st, Failure(RemoteFailed(Mattermost)), calls)
      case Ok(postId) =>
        match InsertTicket(st, user.id, title, Some(""), Some(issueId), Some(postId), NEW, now)
        case Failure(e) => Effect(st, Failure(e), calls)
        case Success(st') => Effect(st', Success(st'.tickets[|st.tickets|]), calls)
  }

  /** create_ticket as written: the row leaves `description` unset, which
      is sent as NULL into a NOT NULL column. Both remote objects are created
      and then the insert is rejected, so the call always raises and nothing
      is stored. */
  function CreateTicketAsWritten(st: Store, user: User, title: string, description: string,
                                 plane: Remote, mattermost: Remote, now: int): (r: Effect<Ticket>)
    ensures r.calls == CreateTicket(st, user, title, description, plane, mattermost, now).calls
    ensures r.result.Failure? && r.store == st
    ensures plane.Ok? && mattermost.Ok? ==>
      r.result.error == (if |title| > TITLE_MAX then ValueTooLong else NotNullViolation)
  {
    var fullTitle := user.fullName + ": " + title;
    match plane
    case Fail => Effect(st, Failure(RemoteFailed(Plane)), [CreateIssue(fullTitle, description)])
    case Ok(issueId) =>
      var calls := [CreateIssue(fullTitle, description), CreateThread(fullTitle, description)];
      match mattermost
      case Fail => Effect(st, Failure(RemoteFailed(Mattermost)), calls)
      case Ok(postId) =>
        match InsertTicket(st, user.id, title, None, Some(issueId), Some(postId), NEW, now)
        case Failure(e) => Effect(st, Failure(e), calls)
  }

  /** Where both remote calls succeed for a registered user and a title that
      fits, the corrected creation stores the ticket while the code as
      written has created the Plane issue and the Mattermost thread and
      stores nothing, leaving both remote objects without a ticket. */
  lemma CreationAsWrittenOrphansRemoteObjects(st: Store, user: User, title: string, description: string,
                                              issueId: string, postId: string, now: int)
    requires |title| <= TITLE_MAX && UserExists(st, user.id)
    ensures var fixed := CreateTicket(st, user, title, description, Ok(issueId), Ok(postId), now);
            var asWritten := CreateTicketAsWritten(st, user, title, description, Ok(issueId), Ok(postId), now);
            && fixed.result.Success? && |fixed.store.tickets| == |st.tickets| + 1
            && asWritten.calls == fixed.calls && |asWritten.calls| == 2
            && asWritten.store == st && asWritten.result == Failure(NotNullViolation)
  {
  }

  /** create_pending_ticket: one "pending" ticket with the given owner, title
      and description and no remote ids; no remote call is made. */
  function CreatePendingTicket(st: Store, user: User, title: string, description: string, now: int): (r: Effect<Ticket>)
    ensures r.calls == []
    ensures r.result.Success? <==> |title| <= TITLE_MAX && UserExists(st, user.id)
    ensures r.result.Failure? ==> r.store == st
    ensures r.result.Success? ==>
      && r.store.users == st.users && r.store.messages == st.messages
      && r.store.tickets == st.tickets + [r.result.value]
      && r.result.value.id == |st.tickets| + 1 && r.result.value.userId == user.id
      && r.result.value.title == title && r.result.value.description == description
      && r.result.value.status == PENDING
      && r.result.value.planeTicketId.None? && r.result.value.mattermostPostId.None?
      && r.result.value.closedAt.None?
    ensures Valid(st) ==> Valid(r.store)
    ensures RemoteIdsConsistent(st) ==> RemoteIdsConsistent(r.store)
  {
    match InsertTicket(st, user.id, title, Some(description), None, None, PENDING, now)
    case Failure(e) => Effect(st, Failure(e), [])
    case Success(st') => Effect(st', Success(st'.tickets[|st.tickets|]), [])
  }

  /** "#<id> <full name>: <title>", the remote title of an activated ticket. */
  function ActivationTitle(id: nat, fullName: string, title: string): string {
    "#" + NatToString(id) + " " + fullName + ": " + title
  }

  /** activate_ticket on the ticket with key `ticketId` (at position
      ticketId - 1): the owner is loaded first (missing: the operation aborts
      before any call), then the Mattermost thread and the Plane issue are
      created in that order; the ticket's status and both ids are written
      only after both calls have returned. */
  function ActivateTicket(st: Store, ticketId: nat, mattermost: Remote, plane: Remote): (r: Effect<()>)
    requires 0 < ticketId <= |st.tickets|
    ensures FindUserById(st.users, st.tickets[ticketId - 1].userId).None? ==>
      r == Effect(st, Failure(UserNotFound), [])
    ensures FindUserById(st.users, st.tickets[ticketId - 1].userId).Some? ==>
      && |r.calls| >= 1
      && r.calls[0] == CreateThread(ActivationTitle(st.tickets[ticketId - 1].id,
                                                    FindUserById(st.users, st.tickets[ticketId - 1].userId).value.fullName,
                                                    st.tickets[ticketId - 1].title),
                                    st.tickets[ticketId - 1].description)
      && (mattermost.Fail? ==> |r.calls| == 1)
      && (mattermost.Ok? ==> |r.calls| == 2 && r.calls[1] == CreateIssue(r.calls[0].title, st.tickets[ticketId - 1].description))
    ensures r.result.Success? <==>
      FindUserById(st.users, st.tickets[ticketId - 1].userId).Some? && mattermost.Ok? && plane.Ok?
    ensures r.result.Failure? ==> r.store == st
    ensures r.result.Success? ==>
      && r.store.users == st.users && r.store.messages == st.messages
      && |r.store.tickets| == |st.tickets|
      && (forall j :: 0 <= j < |st.tickets| && j != ticketId - 1 ==> r.store.tickets[j] == st.tickets[j])
      && r.store.tickets[ticketId - 1] == st.tickets[ticketId - 1].(status := ACTIVE,
                                                                   mattermostPostId := Some(mattermost.id),
                                                                   planeTicketId := Some(plane.id))
    ensures Valid(st) ==> Valid(r.store)
    ensures RemoteIdsConsistent(st) ==> RemoteIdsConsistent(r.store)
  {
    var t := st.tickets[ticketId - 1];
    match FindUserById(st.users, t.userId)
    case None => Effect(st, Failure(UserNotFound), [])
    case Some(owner) =>
      var fullTitle := ActivationTitle(t.id, owner.fullName, t.title);
      match mattermost
      case Fail => Effect(st, Failure(RemoteFailed(Mattermost)), [CreateThread(fullTitle, t.description)])
      case Ok(threadId) =>
        var calls := [CreateThread(fullTitle, t.description), CreateIssue(fullTitle, t.description)];
        match plane
        case Fail => Effect(st, Failure(RemoteFailed(Plane)), calls)
        case Ok(issueId) =>
          var t' := t.(status := ACTIVE, mattermostPostId := Some(threadId), planeTicketId := Some(issueId));
          Effect(UpdateTicket(st, ticketId - 1, t'), Success(()), calls)
  }

  /** cancel_ticket: only the status changes, to "canceled"; no remote call. */
  function CancelTicket(st: Store, ticketId: nat): (r: Store)
    requires 0 < ticketId <= |st.tickets|
    ensures r.users == st.users && r.messages == st.messages && |r.tickets| == |st.tickets|
    ensures forall j :: 0 <= j < |st.tickets| && j != ticketId - 1 ==> r.tickets[j] == st.tickets[j]
    ensures r.tickets[ticketId - 1] == st.tickets[ticketId - 1].(status := CANCELED)
    ensures Valid(st) ==> Valid(r)
    ensures RemoteIdsConsistent(st) ==> RemoteIdsConsistent(r)
  {
    UpdateTicket(st, ticketId - 1, st.tickets[ticketId - 1].(status := CANCELED))
  }

  /** close_ticket: the status becomes "closed" and closed_at is stamped; no
      remote call. */
  function CloseTicket(st: Store, ticketId: nat, now: int): (r: Store)
    requires 0 < ticketId <= |st.tickets|
    ensures r.users == st.users && r.messages == st.messages && |r.tickets| == |st.tickets|
    ensures forall j :: 0 <= j < |st.tickets| && j != ticketId - 1 ==> r.tickets[j] == st.tickets[j]
    ensures r.tickets[ticketId - 1] == st.tickets[ticketId - 1].(status := CLOSED, closedAt := Some(now))
    ensures Valid(st) ==> Valid(r)
    ensures RemoteIdsConsistent(st) ==> RemoteIdsConsistent(r)
  {
    UpdateTicket(st, ticketId - 1, st.tickets[ticketId - 1].(status := CLOSED, closedAt := Some(now)))
  }

  /** A closed ticket leaves its owner's active list; a canceled one stays. */
  lemma CloseAndCancelVersusActiveList(st: Store, ticketId: nat, now: int)
    requires Valid(st) && 0 < ticketId <= |st.tickets|
    ensures var owner := st.tickets[ticketId - 1].userId;
            && (forall t :: t in GetActiveTickets(CloseTicket(st, ticketId, now), owner) ==> t.id != ticketId)
            && st.tickets[ticketId - 1].(status := CANCELED) in GetActiveTickets(CancelTicket(st, ticketId), owner)
  {
    var owner := st.tickets[ticketId - 1].userId;
    var closed := CloseTicket(st, ticketId, now);
    forall t | t in GetActiveTickets(closed, owner)
      ensures t.id != ticketId
    {
      var j :| 0 <= j < |closed.tickets| && closed.tickets[j] == t;
      assert closed.tickets[j].id == j + 1;
    }
    var canceled := CancelTicket(st, ticketId);
    assert canceled.tickets[ticketId - 1] in canceled.tickets;
  }

  /** add_message_to_ticket for a ticket read from the store. A support
      message is stored without any remote call. A user message is pushed as a
      Plane comment, then as a Mattermost reply, and stored only when both
      pushes returned: a failed push stores nothing. */
  function AddMessageToTicket(st: Store, t: Ticket, text: string, sender: SenderType,
                              plane: Remote, mattermost: Remote, now: int): (r: Effect<()>)
    requires t in st.tickets
    ensures sender == FromSupport ==> r.calls == []
    ensures sender == FromUser ==>
      && |r.calls| >= 1 && r.calls[0] == CommentIssue(t.planeTicketId, text)
      && (plane.Fail? ==> |r.calls| == 1)
      && (plane.Ok? ==> |r.calls| == 2 && r.calls[1] == CommentThread(t.mattermostPostId, text))
    ensures r.result.Success? <==> sender == FromSupport || (plane.Ok? && mattermost.Ok?)
    ensures r.result.Failure? ==> r.store == st
    ensures r.result.Success? ==>
      && r.store.users == st.users && r.store.tickets == st.tickets
      && r.store.messages == st.messages + [Message(|st.messages| + 1, t.id, sender, text, now)]
    ensures Valid(st) ==> Valid(r.store)
  {
    assert TicketExists(st, t.id);
    if sender == FromSupport then
      Effect(AppendMessage(st, t.id, FromSupport, text, now), Success(()), [])
    else
      var push := CommentIssue(t.planeTicketId, text);
      match plane
      case Fail => Effect(st, Failure(RemoteFailed(Plane)), [push])
      case Ok(_) =>
        var calls := [push, CommentThread(t.mattermostPostId, text)];
        match mattermost
        case Fail => Effect(st, Failure(RemoteFailed(Mattermost)), calls)
        case Ok(_) => Effect(AppendMessage(st, t.id, sender, text, now), Success(()), calls)
  }

  /** add_message_to_ticket as written: the Plane wrapper is called with a
      keyword argument (`is_from_support`) it does not declare, so a user
      message raises before any request is sent and is never stored. */
  function AddMessageToTicketAsWritten(st: Store, t: Ticket, text: string, sender: SenderType, now: int): (r: Effect<()>)
    requires t in st.tickets
    ensures sender == FromUser ==> r == Effect(st, Failure(BadArguments(Plane)), [])
    ensures sender == FromSupport ==> r.result.Success? && |r.store.messages| == |st.messages| + 1
  {
    assert TicketExists(st, t.id);
    if sender == FromSupport then Effect(AppendMessage(st, t.id, FromSupport, text, now), Success(()), [])
    else Effect(st, Failure(BadArguments(Plane)), [])
  }

  /** The discrepancy: with both remote systems answering, the corrected
      operation stores the user's message and relays it twice, while the code
      as written stores and relays nothing. */
  lemma AsWrittenDropsUserMessages(st: Store, t: Ticket, text: string, issueId: string, postId: string, now: int)
    requires t in st.tickets
    ensures var fixed := AddMessageToTicket(st, t, text, FromUser, Ok(issueId), Ok(postId), now);
            var asWritten := AddMessageToTicketAsWritten(st, t, text, FromUser, now);
            && |fixed.store.messages| == |st.messages| + 1 && |fixed.calls| == 2
            && asWritten.store == st && asWritten.calls == []
  {
  }

  /** format_tickets_for_keyboard: one entry per ticket in the same order,
      with the title, or "Тикет #<id>" when the title is empty. */
  function FormatTicketsForKeyboard(ts: seq<Ticket>): (r: seq<TicketEntry>)
    ensures |r| == |ts|
    ensures forall i :: 0 <= i < |ts| ==>
      && r[i].id == ts[i].id && r[i].status == ts[i].status
      && r[i].title == Some(if ts[i].title != "" then ts[i].title else DefaultTicketLabel(ts[i].id))
  {
    seq(|ts|, i requires 0 <= i < |ts| =>
      TicketEntry(ts[i].id, Some(if ts[i].title != "" then ts[i].title else DefaultTicketLabel(ts[i].id)), ts[i].status))
  }

  /** Buttons built from formatted tickets never have an empty text, and each
      button's payload reads back as its ticket's id. */
  lemma FormattedTicketButtons(ts: seq<Ticket>)
    ensures var k := TicketsKeyboard(FormatTicketsForKeyboard(ts));
            forall i :: 0 <= i < |ts| ==>
              && |k[i]| == 1 && |k[i][0].text| > 0
              && k[i][0].InlineButton? && CallbackTicketId(k[i][0].callbackData) == Some(ts[i].id)
  {
    var k: Keyboard := TicketsKeyboard(FormatTicketsForKeyboard(ts));
    forall i | 0 <= i < |ts|
      ensures |k[i]| == 1 && |k[i][0].text| > 0
      ensures k[i][0].InlineButton? && CallbackTicketId(k[i][0].callbackData) == Some(ts[i].id)
    {
      TicketCallbackRoundTrip(ts[i].id);
    }
  }
}

=== FILE: ticket_utils.dfy ===
/** Time-windowed selection of a user's active ticket, and the one-ticket
    summary with its status emoji. Timestamps are integer seconds. */
module TicketUtils {
  import opened Common
  import opened Text
  import opened Models
  import opened TicketService

  /** A ticket with its `updated_at` time, the column the selection filters
      and orders on (the ticket record itself does not declare it). */
  datatype TicketActivity = TicketActivity(ticket: Ticket, updatedAt: int)

  /** A candidate: the user's ticket, updated at or after the cutoff. */
  predicate IsRecentTicketOf(a: TicketActivity, userId: nat, cutoff: int) {
    a.ticket.userId == userId && a.updatedAt >= cutoff
  }

  /** get_active_ticket: the user is looked up by Telegram id (unknown: no
      ticket); among the user's tickets updated within the last `activeTime`
      seconds before `now`, one updated last is returned. */
  method GetActiveTicket(users: seq<User>, activity: seq<TicketActivity>, telegramId: int,
                         activeTime: int, now: int) returns (r: Option<TicketActivity>)
    ensures FindUserByTelegramId(users, telegramId).None? ==> r.None?
    ensures FindUserByTelegramId(users, telegramId).Some? ==>
      && (r.None? <==> forall k :: 0 <= k < |activity| ==>
            !IsRecentTicketOf(activity[k], FindUserByTelegramId(users, telegramId).value.id, now - activeTime))
      && (r.Some? ==>
            && r.value in activity
            && IsRecentTicketOf(r.value, FindUserByTelegramId(users, telegramId).value.id, now - activeTime)
            && forall k ::
                 (0 <= k < |activity| &&
                  IsRecentTicketOf(activity[k], FindUserByTelegramId(users, telegramId).value.id, now - activeTime))
                 ==> activity[k].updatedAt <= r.value.updatedAt)
  {
    var cutoff := now - activeTime;
    var user := FindUserByTelegramId(users, telegramId);
    if user.None? {
      return None;
    }
    var userId := user.value.id;
    r := None;
    var i := 0;
    while i < |activity|
      invariant 0 <= i <= |activity|
      invariant r.None? <==> forall k :: 0 <= k < i ==> !IsRecentTicketOf(activity[k], userId, cutoff)
      invariant r.Some? ==>
        && r.value in activity
        && IsRecentTicketOf(r.value, userId, cutoff)
        && forall k :: 0 <= k < i && IsRecentTicketOf(activity[k], userId, cutoff) ==>
             activity[k].updatedAt <= r.value.updatedAt
    {
      var a := activity[i];
      if IsRecentTicketOf(a, userId, cutoff) && (r.None? || a.updatedAt > r.value.updatedAt) {
        r := Some(a);
      }
      i := i + 1;
    }
  }

  const UNKNOWN_STATUS_EMOJI: char := '❓'

  /** The status-to-emoji table of the ticket summary. */
  const STATUS_EMOJI: map<string, char> :=
    map["new" := '🆕', "in_progress" := '⏳', "resolved" := '✅', "closed" := '🔒']

  /** The table's emoji for a listed status, '❓' for any other one. */
  function StatusEmoji(status: string): (e: char)
    ensures status in STATUS_EMOJI ==> e == STATUS_EMOJI[status]
    ensures e == UNKNOWN_STATUS_EMOJI <==> status !in STATUS_EMOJI
  {
    if status in STATUS_EMOJI then STATUS_EMOJI[status] else UNKNOWN_STATUS_EMOJI
  }

  /** "<emoji> Тикет #<id>", the summary's first line without its newline. */
  function TicketInfoHeader(t: Ticket): string {
    [StatusEmoji(t.status)] + " Тикет #" + NatToString(t.id)
  }

  /** format_ticket_info: the header line, the status line, and the two
      timestamps (already rendered with "%d.%m.%Y %H:%M"). */
  function FormatTicketInfo(t: Ticket, createdText: string, updatedText: string): (r: string)
    ensures StartsWith(r, TicketInfoHeader(t) + "\n")
    ensures Contains(r, "Статус: " + t.status)
  {
    var head := TicketInfoHeader(t) + "\n";
    var statusLine := "Статус: " + t.status;
    var r := head + statusLine + "\nСоздан: " + createdText + "\nПоследнее обновление: " + updatedText;
    assert r[..|head|] == head;
    assert OccursAt(r, statusLine, |head|);
    r
  }

  /** The summary names its ticket: the digits after "#" on the first line
      read back as the ticket's id. */
  lemma TicketInfoNamesTicket(t: Ticket, createdText: string, updatedText: string)
    ensures var r := FormatTicketInfo(t, createdText, updatedText);
            var n := |NatToString(t.id)|;
            && |r| > 9 + n && r[0] == StatusEmoji(t.status) && r[9 + n] == '\n'
            && AllDigits(r[9..9 + n]) && DigitsValue(r[9..9 + n]) == t.id
  {
    var r := FormatTicketInfo(t, createdText, updatedText);
    var header := TicketInfoHeader(t);
    assert |" Тикет #"| == 8;
    assert r[..|header| + 1] == header + "\n";
    assert header[9..] == NatToString(t.id);
    assert r[9..9 + |NatToString(t.id)|] == header[9..];
    DigitsValueOfNatToString(t.id);
  }
}

=== FILE: webhook.dfy ===
/** The inbound relay: a Mattermost webhook about a post in a ticket's
    thread is stored as a support message and forwarded to the ticket's
    owner in Telegram. The post lookup, the configured support identity and
    the outcome of the Telegram send are parameters. */
module Webhook {
  import opened Common
  import opened Text
  import opened Models
  import opened TicketService

  /** The JSON body fields the handler reads. `text` is the value of the
      "text" key, "" when the key is absent. */
  datatype Payload = Payload(postId: Option<string>, text: string, userId: Option<string>, userName: Option<string>)

  /** The result of asking Mattermost for the post: the call raised, came
      back empty, or returned a post whose "root_id" key may be absent. */
  datatype PostLookup = PostRaised | PostMissing | PostFound(rootId: Option<string>)

  /** The account the bot itself posts under in Mattermost. */
  datatype SupportIdentity = SupportIdentity(userId: string, userName: string)

  /** A JSON `{"status": ...}` body, or the 500 response of an exception. */
  datatype Response = Status(status: string) | ServerError

  /** A Telegram message sent to a chat. */
  datatype Delivery = Delivery(chatId: int, text: string)

  datatype WebhookResult = WebhookResult(response: Response, store: Store, sends: seq<Delivery>)

  const POST_ID_NOT_FOUND: string := "post_id not found"
  const POST_NOT_FOUND: string := "post not found"
  const TICKET_NOT_FOUND: string := "ticket not found"
  const USER_NOT_FOUND: string := "user not found"
  const IGNORED: string := "ignored"
  const SUCCESS: string := "success"

  /** The header of the forwarded reply. */
  const REPLY_HEADER: string := "\U{1F4AC} Новое сообщение в вашем обращении:\n\n"

  /** Python truthiness of the post id. */
  predicate HasPostId(p: Payload) {
    p.postId.Some? && p.postId.value != ""
  }

  /** The thread root the post belongs to: its "root_id" when that key is
      present (even if empty), otherwise the post itself. */
  function RootId(postId: string, lookup: PostLookup): (r: string)
    requires lookup.PostFound?
    ensures lookup.rootId.Some? ==> r == lookup.rootId.value
    ensures lookup.rootId.None? ==> r == postId
  {
    lookup.rootId.GetOr(postId)
  }

  /** The post was written by the bot's own support account: its author id
      or author name is the configured one. A payload that names no author
      is never an echo. */
  predicate IsEcho(p: Payload, support: SupportIdentity)
    ensures IsEcho(p, support) ==> p.userId.Some? || p.userName.Some?
  {
    p.userId == Some(support.userId) || p.userName == Some(support.userName)
  }

  /** The Telegram text for a support reply; `text` is already stripped. */
  function ReplyText(text: string): (r: string)
    ensures |r| == |REPLY_HEADER| + |text| && r[|REPLY_HEADER|..] == text
  {
    REPLY_HEADER + text
  }

  /** mattermost_webhook, corrected so that the support identity is a
      parameter, in order: a missing post id, a post that cannot be
      fetched, no ticket whose thread is the post's root, and a ticket whose
      owner is missing each end the request with their own status and with no
      write and no send. Past those checks the payload text is stored as one
      support message; only then is the author compared with the support
      identity, so an echoed post is stored too, but answered "ignored" and
      not sent. Otherwise the stripped text, when non-empty, is sent to the
      owner's Telegram chat; a failed send makes the response a 500, with the
      message already stored. */
  function HandleWebhook(st: Store, p: Payload, lookup: PostLookup, support: SupportIdentity, send: Remote, now: int): (r: WebhookResult)
    requires Valid(st)
    ensures !HasPostId(p) ==> r == WebhookResult(Status(POST_ID_NOT_FOUND), st, [])
    ensures HasPostId(p) && lookup.PostRaised? ==> r == WebhookResult(ServerError, st, [])
    ensures HasPostId(p) && lookup.PostMissing? ==> r == WebhookResult(Status(POST_NOT_FOUND), st, [])
    ensures HasPostId(p) && lookup.PostFound? ==>
      match FindTicketByPostId(st.tickets, RootId(p.postId.value, lookup))
      case None => r == WebhookResult(Status(TICKET_NOT_FOUND), st, [])
      case Some(t) =>
        match FindUserById(st.users, t.userId)
        case None => r == WebhookResult(Status(USER_NOT_FOUND), st, [])
        case Some(owner) =>
          && r.store == AppendMessage(st, t.id, FromSupport, p.text, now)
          && (IsEcho(p, support) ==> r.response == Status(IGNORED) && r.sends == [])
          && (!IsEcho(p, support) && Strip(p.text) == [] ==> r.response == Status(SUCCESS) && r.sends == [])
          && (!IsEcho(p, support) && Strip(p.text) != [] ==>
                && r.sends == [Delivery(owner.telegramId, ReplyText(Strip(p.text)))]
                && r.response == (if send.Ok? then Status(SUCCESS) else ServerError))
    ensures Valid(r.store) && Grows(st, r.store)
    ensures |r.store.messages| <= |st.messages| + 1 && |r.sends| <= 1
    ensures r.sends != [] ==> |r.store.messages| == |st.messages| + 1
  {
    if !HasPostId(p) then WebhookResult(Status(POST_ID_NOT_FOUND), st, [])
    else match lookup
      case PostRaised => WebhookResult(ServerError, st, [])
      case PostMissing => WebhookResult(Status(POST_NOT_FOUND), st, [])
      case PostFound(_) =>
        match FindTicketByPostId(st.tickets, RootId(p.postId.value, lookup))
        case None => WebhookResult(Status(TICKET_NOT_FOUND), st, [])
        case Some(t) =>
          match FindUserById(st.users, t.userId)
          case None => WebhookResult(Status(USER_NOT_FOUND), st, [])
          case Some(owner) =>
            assert TicketExists(st, t.id);
            var stored := AppendMessage(st, t.id, FromSupport, p.text, now);
            if IsEcho(p, support) then WebhookResult(Status(IGNORED), stored, [])
            else
              var text := Strip(p.text);
              if text == [] then WebhookResult(Status(SUCCESS), stored, [])
              else
                var sends := [Delivery(owner.telegramId, ReplyText(text))];
                WebhookResult(if send.Ok? then Status(SUCCESS) else ServerError, stored, sends)
  }

  /** mattermost_webhook as written: the echo check reads two settings that
      the configuration class does not declare, so once the post has resolved
      to a ticket and its owner and the support message is committed, the
      handler raises and answers 500. No post is ever forwarded. */
  function HandleWebhookAsWritten(st: Store, p: Payload, lookup: PostLookup, now: int): (r: WebhookResult)
    requires Valid(st)
    ensures r.sends == []
    ensures !HasPostId(p) ==> r == WebhookResult(Status(POST_ID_NOT_FOUND), st, [])
    ensures HasPostId(p) && lookup.PostRaised? ==> r == WebhookResult(ServerError, st, [])
    ensures HasPostId(p) && lookup.PostMissing? ==> r == WebhookResult(Status(POST_NOT_FOUND), st, [])
    ensures HasPostId(p) && lookup.PostFound? ==>
      match FindTicketByPostId(st.tickets, RootId(p.postId.value, lookup))
      case None => r == WebhookResult(Status(TICKET_NOT_FOUND), st, [])
      case Some(t) =>
        match FindUserById(st.users, t.userId)
        case None => r == WebhookResult(Status(USER_NOT_FOUND), st, [])
        case Some(_) => r == WebhookResult(ServerError, AppendMessage(st, t.id, FromSupport, p.text, now), [])
  {
    if !HasPostId(p) then WebhookResult(Status(POST_ID_NOT_FOUND), st, [])
    else match lookup
      case PostRaised => WebhookResult(ServerError, st, [])
      case PostMissing => WebhookResult(Status(POST_NOT_FOUND), st, [])
      case PostFound(_) =>
        match FindTicketByPostId(st.tickets, RootId(p.postId.value, lookup))
        case None => WebhookResult(Status(TICKET_NOT_FOUND), st, [])
        case Some(t) =>
          match FindUserById(st.users, t.userId)
          case None => WebhookResult(Status(USER_NOT_FOUND), st, [])
          case Some(_) =>
            assert TicketExists(st, t.id);
            WebhookResult(ServerError, AppendMessage(st, t.id, FromSupport, p.text, now), [])
  }

  /** Whatever the support identity and the send outcome, the webhook as
      written stores what the corrected one stores, never forwards, and
      answers 500 exactly where the corrected one has stored a message;
      elsewhere both answer alike. */
  lemma WebhookAsWrittenNeverRelays(st: Store, p: Payload, lookup: PostLookup, support: SupportIdentity, send: Remote, now: int)
    requires Valid(st)
    ensures var fixed := HandleWebhook(st, p, lookup, support, send, now);
            var asWritten := HandleWebhookAsWritten(st, p, lookup, now);
            && asWritten.store == fixed.store && asWritten.sends == []
            && (|fixed.store.messages| == |st.messages| + 1 ==> asWritten.response == ServerError)
            && (|fixed.store.messages| == |st.messages| ==> asWritten == fixed)
  {
    WebhookStoresIffResolved(st, p, lookup, support, send, now);
  }

  /** The store grows by a support message exactly when the post resolves
      to a ticket and its owner, whoever wrote it. */
  lemma WebhookStoresIffResolved(st: Store, p: Payload, lookup: PostLookup, support: SupportIdentity, send: Remote, now: int)
    requires Valid(st)
    ensures var r := HandleWebhook(st, p, lookup, support, send, now);
            |r.store.messages| == |st.messages| + 1 <==>
              && HasPostId(p) && lookup.PostFound?
              && FindTicketByPostId(st.tickets, RootId(p.postId.value, lookup)).Some?
              && FindUserById(st.users, FindTicketByPostId(st.tickets, RootId(p.postId.value, lookup)).value.userId).Some?
  {
  }

  /** A post by the support account is never forwarded to Telegram and is
      never answered "success", whatever else the payload holds. */
  lemma EchoNeverForwarded(st: Store, p: Payload, lookup: PostLookup, support: SupportIdentity, send: Remote, now: int)
    requires Valid(st) && IsEcho(p, support)
    ensures var r := HandleWebhook(st, p, lookup, support, send, now);
            r.sends == [] && r.response != Status(SUCCESS)
  {
  }
}
